=== FILE: README.md ===
# quizgame round engine in Dafny

A model of the round engine of quizgame, a fill-in-the-blank book trivia game. Players see
the summary of a book and submit a fake first sentence. The real sentence is mixed in
under the sentinel author `correct`, and every player guesses which answer is real.
Points go to those who guess right and to the authors of fakes that fool someone. A game
moves through the phases `setup`, `pose`, `answer`, `show` and `final`. The `PlayGame`
loop handles one request at a time.

Everything is modelled as pure functions over immutable datatypes. `Session.Step` takes a
game, a request and the environment of that moment, and returns the next game with its
response, a stop, or a panic. The environment holds:

- the clock, in whole seconds;
- an id for a joining player (any string; it is not required to differ from the ids in use);
- the question file's contents;
- a random source.

Go's unspecified map iteration order appears as a ghost choice. Scores are proved not to
depend on it.

Modules, one per file:

- `Wrappers`: `Option`, `Result`.
- `Constants`: phases, request kinds and the constants of game.go.
- `Decimal`: `strconv.Atoi` and `%d`.
- `Questions`: question.go.
- `Chats`: chat.go.
- `Roster`: the player lookups of game.go.
- `Scoring`: `CloseGuessSubmissions`' loop.
- `Standings`: `GetScores` and `FinalResult`.
- `Games`: the other operations of game.go.
- `Tags`: `StripTags`.
- `Session`: the `PlayGame` switch.
- `Findings`: three defects of the code as written, and the corrected loop.

Where playgame.go names things game.go does not define, the model follows the evident
intent:

- `g.State` reads `g.state`.
- `ReqTypeQuestionTimeout`/`ReqTypeAnswerTimeout` are the kinds `questiontimeout` and
  `answertimeout`.

`displaytimeout` is armed by `SetState` but has no case in the switch, so it gets the
default response. `SetState` sends all three of its timeouts (question, answer, display) on
`g.Ch`, which `PlayGame` never sets (playgame.go:27), so those sends block forever. Only the
timeouts `PlayGame` itself starts on its channel ever arrive.

## Model

| member | source | states |
|---|---|---|
| Constants.ParseKind | playgame.go:45-133 | the switch's reading of a request type: the recognised spellings of game.go:24-34 map to their kind; any other string is `Unknown` |
| Constants.ParseKindName | game.go:24-34 | every recognised kind is read back from its own spelling |
| Decimal.Atoi | game.go:128-131 | a payload is a number iff it is an optional sign then at least one digit, within 64 bits; the value is the one its digits denote |
| Decimal.FormatNat | game.go:209 | `%d` of a count: nonempty, all digits, no leading zero, denoting the count |
| Decimal.AtoiOfFormatNat | game.go:209 | reading a formatted count back gives the count |
| Questions.Authored | question.go:64-71 | true iff some answer is by that user |
| Questions.HasSubmitted | question.go:64-71 | true iff some entry of the answers has that user |
| Questions.HasAnswered | question.go:73-78 | true iff the id is a key of the guesses; a nil map has no keys |
| Questions.Swap | question.go:59-61 | exchanging two positions keeps the length and the multiset |
| Questions.ShuffleDown | question.go:58-61 | each Fisher-Yates step keeps the multiset and leaves the untouched suffix alone |
| Questions.Shuffle | question.go:54-62 | the result is a permutation of the input: same length, same multiset |
| Questions.ShuffleAnswers | question.go:54-62 | shuffling a question permutes its answers and changes nothing else |
| Questions.Init | question.go:30-52 | appends exactly one answer, by the sentinel, and keeps earlier answers; an even coin gives kind `first` with text First, an odd one gives `last` with text Last |
| Questions.InitSeedsSentinel | question.go:40-51 | after `Init` an id has submitted iff it had before or it is the sentinel author |
| Questions.CountBy | question.go:64-71 | the number of answers by a user is positive iff the user authored one |
| Questions.CountByAppend | question.go:51 | counts add up over concatenation |
| Questions.CountByPermutation | question.go:59-61 | permuting answers keeps every user's count |
| Chats.AddMessage | chat.go:17-19 | appends exactly one message at the end, keeps all earlier ones and every cursor, and keeps the chat well-formed |
| Chats.GetMessages | chat.go:21-43 | for the empty id: nothing delivered, nothing moved. Otherwise: the messages from the cursor to the end, in order, with the cursor set to the log's length. A reader already at the end gets nothing. Other cursors never change |
| Chats.GetMessagesAdvancesCursor | chat.go:30-34 | the caller's cursor never decreases and ends at the log's length |
| Chats.SecondReadIsEmpty | chat.go:30-32 | a second read with no message in between delivers nothing |
| Chats.NewReaderGetsWholeLog | chat.go:23-25 | a reader with no cursor starts at 0 and receives the whole log |
| Chats.ApplySendsSlice | chat.go:17-34 | one add or read keeps the chat valid, extends the log, and sends a reader exactly the log between its old and new cursor |
| Chats.DeliveriesAreSlice | chat.go:30-34 | over any interleaving of adds and reads, all deliveries to a reader, concatenated, are the log from its first cursor to its last: each message once, in order |
| Chats.ExtendsTransitive | chat.go:17-34 | later-state-of is transitive |
| Chats.NewReaderReceivesPrefix | chat.go:23-34 | everything a new reader is ever sent is a prefix of the final log |
| Roster.IndexOf | game.go:71-80 | the first position with that id, or none iff no player has it |
| Roster.CheckPermission | game.go:447-454 | true iff some player has that id |
| Roster.PlayerByXid | game.go:71-80 | the first player with that id; for an unknown id, a throwaway zero player |
| Roster.NameTaken | game.go:457-461 | true iff some player has that name |
| Roster.IndexOfSameIds | game.go:71-80 | lookups depend only on the ids, not on the scores |
| Roster.Award | game.go:250-263 | one point to the first player with that id and no one else; for an unknown id the point is lost |
| Roster.TotalBump | game.go:255-262 | one increment raises the score total by one |
| Roster.AwardTotal | game.go:250-263 | a point raises the total by one iff the id is known |
| Scoring.Callout | game.go:259 | the self-guess line begins "Come on, " followed by the player's name verbatim, with a fixed-length tail |
| Scoring.CorrectIndex | game.go:246-251 | the index of the LAST sentinel answer, or 0 when there is none |
| Scoring.Judge | game.go:252-264 | a guess at the sentinel index points to the guesser. A guess at one's own answer gives no point. Any other in-range guess points to that answer's author. An out-of-range wrong guess is the panic case |
| Scoring.ScoreInOrder | game.go:252-265 | scoring in a given order panics iff some guess is out of range; otherwise ids and names are kept and the chat only grows |
| Scoring.ScoreAt | game.go:252-265 | each player's score after scoring is its old score plus the points addressed to its id (if it is the first with that id) |
| Scoring.ScoreInOrderClosedForm | game.go:252-265 | the per-player closed form holds for all players at once |
| Scoring.Enumerate | game.go:252 | some order that lists each guessing id exactly once |
| Scoring.PointsForEnumeration | game.go:252-265 | the points addressed to an id in any enumeration equal the number of guesses whose point goes to it |
| Scoring.ScoringOrderIndependent | game.go:252-265 | two iteration orders either both panic or give the same scores |
| Scoring.ScoreRound | game.go:252-265 | scoring in map order panics iff some guess is out of range. Otherwise each player gains, at the first position with its id, the number of guesses that give it a point |
| Scoring.ScoreInOrderChat | game.go:252-265 | in a given order, the chat after scoring is the old log followed by exactly the callouts of the self-guesses, in scoring order, posted as the admin |
| Scoring.CalloutsNameSelfGuessers | game.go:258-259 | every callout names a guesser who picked their own answer |
| Scoring.SelfGuessersCalledOut | game.go:258-259 | every guesser who picked their own answer is called out |
| Scoring.CalloutCount | game.go:252-265 | over any iteration order there are exactly as many callouts as self-guessers |
| Scoring.ScoreRoundCallouts | game.go:252-265 | in map order, scoring keeps the log and cursors and adds one admin callout per self-guesser, naming that guesser, as many as there are self-guessers |
| Scoring.AtMostOnePointPerGuess | game.go:252-265 | scores never decrease, and the total rises by at most the number of guesses |
| Standings.GetScores | game.go:271-277 | one line per player, in roster order, with its name and score |
| Standings.Tabulate | game.go:150-159 | one entry per distinct name, holding the score of the LAST player with that name (later map writes win) |
| Standings.Insert | game.go:166-168 | inserting into a score-descending list keeps it sorted and adds exactly that entry |
| Standings.SortByScore | game.go:166-168 | the sorted list is a permutation of the input in non-increasing score order |
| Standings.FinalResult | game.go:148-194 | each player once, in non-increasing score order. "Tie" iff more than one entry and the top two are equal. The single-player header iff at most one entry. A winner strictly beats everyone else. The book titles are those of the finished questions, in order |
| Standings.DistinctCountsOnce | game.go:150-159 | in a list with distinct names each name occurs exactly once |
| Standings.PermutationKeepsDistinct | game.go:166-168 | sorting keeps the names distinct |
| Standings.StandingsListEachPlayerOnce | game.go:148-184 | every roster name appears in the standings exactly once, and nothing else does |
| Games.NewGame | playgame.go:27 | a session's game starts in `setup` with its id and code, no players, no questions, the empty chat, and the zero current question whose guesses are Go's nil map |
| Games.AddPlayer | game.go:456-465 | fails iff the name is in use, leaving the roster unchanged; otherwise appends exactly one player with the given id, the game's code and score 0 |
| Games.Remaining | game.go:304-322 | the countdown floored at 0: zero iff the time is up, and otherwise adds up with the elapsed time to the limit |
| Games.GetTimer | game.go:304-323 | a countdown only in pose, answer and show, measured from that phase's start against 180, 60 or 30 seconds |
| Games.TimerCountsDown | game.go:304-323 | the countdown never goes up as time passes, and once the phase has begun it never shows more than the phase's limit |
| Games.SetState | game.go:283-302 | setting the current state again is a no-op; entering pose, answer or show records the time; nothing else changes |
| Games.BooksLeft | game.go:209 | the announcement is "There are ", then the decimal count, then " books left.", and nothing else |
| Games.PlayQuestion | game.go:196-219 | the old current question joins the done ones iff its id is nonempty. No question left: `final`. Otherwise the head becomes current with empty guesses, the pool shrinks by one, the count is announced, and the state is `pose` |
| Games.CloseQuestionSubmissions | game.go:221-241 | without a sentinel answer, the answers become a permutation of the old ones plus one sentinel with text First, with exactly one sentinel; with one, they are kept; either way the state becomes `answer` |
| Games.SeededOnce | game.go:225-236 | shuffling in the sentinel leaves exactly one sentinel answer |
| Games.Submit | game.go:94-117 | a repeat from the same id changes nothing. Otherwise `{id, payload}` is appended. Submissions close exactly when the answer count becomes the roster size |
| Games.CloseGuessSubmissions | game.go:243-267 | panics iff some wrong guess is out of range. Otherwise each player gains the number of guesses that give it a point, whatever the iteration order. Apart from the roster and the chat, the game is `SetState(show)` of the old one: the results time is set unless already in `show`, and the question, its answers and its guesses are kept |
| Games.CloseGuessSubmissionsCallouts | game.go:258-260 | closing keeps the old log and cursors and adds one admin callout per player who guessed their own answer, naming that player; as many callouts as such players |
| Games.RecordGuess | game.go:120-146 | a repeat id or a non-numeric payload changes nothing. Otherwise exactly one entry is added; into a nil map that is a panic. When the guess count reaches the roster size, scoring runs |
| Games.Truncate | game.go:436-438 | keeps the first seven questions, or all when fewer |
| Games.Start | game.go:83-91 | a failed load changes nothing. An empty pool ends the game. Otherwise one question from the pool is posed with empty guesses, and at most six more wait. The posed and the waiting questions together are drawn from the pool without repetition |
| Games.TruncateKeepsPool | game.go:429-438 | keeping at most seven of a shuffled pool keeps only pool questions, as many as the pool has up to seven |
| Games.PlayFromPool | game.go:209-216 | playing a selection from the pool poses its first question with empty guesses and leaves the rest waiting, all drawn from the pool without repetition |
| Games.ShowGame | game.go:325-401 | in pose, the waiting view iff the player has submitted; in answer, the waiting view iff it has guessed, otherwise one choice per answer, choice `i` showing the text of answer `i`; in final, the standings |
| Tags.StripTags | playgame.go:10-13 | deletes each `<` with everything up to the first `>` after it; a `<` with no later `>` keeps the rest of the string; the result is never longer than the input and keeps a leading character other than `<` |
| Tags.FindClose | playgame.go:11 | the first `>` at or after a position, or none iff there is none |
| Tags.StripTagsIsSubsequence | playgame.go:10-13 | the output is a subsequence of the input |
| Tags.StripTagsIsTagFree | playgame.go:11-12 | the output has no `<` followed later by `>` |
| Tags.TagFreeUnchanged | playgame.go:11-12 | a string with no `<` before a later `>` comes back unchanged |
| Tags.NoOpenUnchanged | playgame.go:10-13 | a string without `<` comes back unchanged |
| Tags.StripTagsIdempotent | playgame.go:11-12 | stripping twice is stripping once |
| Tags.StripTagsScan | playgame.go:10-13 | a left-to-right scanning loop computes the same string as the recursive definition |
| Session.Full | playgame.go:50 | the full screen shows the current phase and view and delivers the reader's unread chat |
| Session.Clean | playgame.go:41-43 | the dispatched payload has no tags left and only drops characters |
| Session.Default | playgame.go:35 | the response prepared before the switch carries only the game's phase: no timer, scores, view, payload or chat |
| Session.Ack | playgame.go:58-99 | an acknowledgement has the `temp` tag, the given text and payload, the new game's timer, one score line per player, and no chat |
| Session.OnChat | playgame.go:46-52 | from an unknown token: no message, the default response. Otherwise the message joins the log under the sender's name and the sender receives everything from its cursor, ending with its own message |
| Session.OnPoll | playgame.go:61-65 | from an unknown token: the default response; otherwise the full screen with the unread chat |
| Session.OnJoin | playgame.go:53-60 | a taken name gets the default response; otherwise the new player is appended and its id is returned |
| Session.OnStart | playgame.go:66-76 | acts only in `setup`. A loaded pool leads to `pose`, or to `final` when empty. A failed load only posts the greeting |
| Session.OnSubmit | playgame.go:77-86 | acts only in `pose`, and the result is `pose` or `answer` |
| Session.OnGuess | playgame.go:87-90 | any phase: the guess goes to `Game.Answer`, and a panic there is a panic of the loop |
| Session.OnNext | playgame.go:91-102 | acts only in `show` and leads to `pose` (with questions left) or `final`, with the matching text |
| Session.OnQuestionTimeout | playgame.go:103-114 | acts only in `pose` for the current question's id; a stale timeout leaves the game unchanged |
| Session.OnAnswerTimeout | playgame.go:115-124 | acts only in `answer` for the current question's id; it panics iff scoring does |
| Session.Dispatch | playgame.go:45-133 | every request the switch answers gets a snapshot response |
| Session.DispatchEnds | playgame.go:45-135 | only `end` stops, with the empty response, and only `answer` and `answertimeout` can panic |
| Session.DispatchPhaseGates | playgame.go:66-102 | `start`, `submit` and `next` outside their phase change nothing and get the default. `next` in `show` leads to `pose` or `final` |
| Session.DispatchAccessGates | playgame.go:45-133 | unhandled kinds, chat or poll from an unknown token, and stale timeouts change nothing and get the default |
| Session.DispatchKeepsIds | playgame.go:45-135 | no request changes the game's id or access code. Only `join`, `answer` and `answertimeout` change the roster |
| Session.Step | playgame.go:35-135 | `end` and only `end` stops, with the empty response. Panics come only from `answer` and `answertimeout`. The gates of start, submit, next, the timeouts, chat and poll hold. Unhandled kinds get the default. Ids are kept, and only `join`, `answer` and `answertimeout` change the roster. Every answered request other than `end` gets a snapshot |
| Session.SecondStartIsNoOp | playgame.go:66-76 | after a start that loaded questions, another start changes nothing |
| Session.Run | playgame.go:29-136 | at most one response per request. Without an `end` or a panic, every request is answered. A panic ends the run before its request is answered |
| Session.RunEndsAtEnd | playgame.go:125-128 | a run that ended did so at an `end` request, and its empty response is the last one |
| Session.RunAnswersUntilEnd | playgame.go:29-136 | no request answered before the last response is an `end` |
| Session.DispatchKeepsChatValid | playgame.go:45-133 | no handler moves a reader's chat cursor past the end of the log |
| Session.NewGameChatValid | playgame.go:27 | the session's chat starts with an empty log and no cursors, which is valid |
| Session.StepKeepsChatValid | playgame.go:45-135 | every iteration that continues leaves the chat valid, so the delivery guarantees of chat.go hold for each later chat and poll |
| Session.RunKeepsChatValid | playgame.go:29-136 | the chat stays valid through a whole run |
| Findings.GuessBeforeStartPanics | game.go:133 | see Findings |
| Findings.OutOfRangeGuessPanics | game.go:258 | see Findings |
| Findings.LateGuessScoresTwice | playgame.go:87-90 | see Findings |
| Findings.GuessAdmissible | game.go:128-133 | an admissible guess is made in `answer` and names one of the answers |
| Findings.StepGated | playgame.go:87-90 | outside `answer` a guess changes nothing. An admissible guess and every other request are handled as by `Step` |
| Findings.NewGameWf | playgame.go:27 | a fresh game satisfies the guess invariant |
| Findings.SubmitKeepsWf | game.go:94-117 | submissions keep every recorded guess in range |
| Findings.CloseKeepsWf | game.go:221-241 | closing submissions keeps the guesses and does not shrink the answers |
| Findings.InRangeScoringSucceeds | game.go:252-265 | scoring in-range guesses never panics |
| Findings.AdmittedGuessKeepsWf | game.go:120-146 | an admissible guess never panics and keeps the guesses in range |
| Findings.PhaseStepsKeepWf | playgame.go:66-114 | `start`, `submit`, `next` and the question timeout keep every recorded guess in range |
| Findings.GuessStepsKeepWf | playgame.go:87-124 | an admitted guess and the answer timeout never panic and keep the guesses in range |
| Findings.DispatchKeepsWf | playgame.go:45-135 | no handler panics once guesses are gated, and each keeps the guesses in range |
| Findings.DispatchScoresOnlyWhenClosing | game.go:243-267 | the handlers only append players. An existing player changes only on the move from `answer` to `show` |
| Findings.GatedStepKeepsWf | playgame.go:45-135 | with the guess gate no request panics and the invariant is kept |
| Findings.GatedScoresOnlyWhenClosing | game.go:243-267 | with the guess gate scores change only on the move from `answer` to `show` |
| Findings.RunGated | playgame.go:29-136 | the corrected loop answers one request per step |
| Findings.GatedRunNeverCrashes | playgame.go:29-136 | a gated session never panics and answers every request up to the first `end` |

## Left out

- HTTP handlers, JSON and the global game map (quizgame.go, poll.go, score.go) are not part of this model. That includes the debug code that adds random scores.
- db.go is not part of this model: it is database I/O.
- Goroutines and channels are left out: `Timeout`, timer arming in `SetState` and the loop, and the response channels. A timeout is an ordinary request that may arrive at any point of a request sequence.
- `time.Now`, `rand` and `xid` are parameters:
  - the clock is an integer of whole seconds in the environment of each request;
  - a shuffle takes a `draw` function in place of the seeded generator;
  - a joining player's id is an arbitrary string of the environment, not required fresh; `xid.New()` makes it unique, and no property here depends on that. The same goes for the question ids of the pool.
- Games.Start: the file read and JSON decode of `FromFile` are an environment field holding the decoded questions with their ids already assigned, or none on error. A decode that fails after partly filling the questions is not modelled.
- Games.ShowGame: the markup and the two caches (`ResultsHtml`, `finalHtml`) are left out. The results view is recomputed from the current answers and guesses, which is what the cache holds as long as nothing changes in `show`; the late-guess finding below shows that something can. The standings shown in `final` are likewise recomputed, while the Go program builds `finalHtml` once and keeps showing it, so a player who joins in `final` is missing from its standings but present in the model's.
- Standings.FinalResult: the markup is left out. Entries with equal scores are in some order that is sorted by score, as `sort.Slice` is not stable. The model fixes one such order (insertion sort), and the contract states only what every such order satisfies.
- Standings.GetScores, Session.Full: scores, chat and views are sequences and datatypes, not HTML.
- `log.Printf` is left out.
- Roster.Award: Go's `int` score would wrap after 2^63 points; scores here are unbounded naturals.
- Questions.Init: it is never called by the game code. The closing step always seeds the sentinel with the First line, and the model does the same. `Question.Shuffle` (question.go:54-62, modelled by `Questions.ShuffleAnswers`) is never called either: the only shuffles the game runs are inline, of the current answers when question submissions close (game.go:235) and of the question pool when the game starts (game.go:430), so `CloseQuestionSubmissions` and `Start` use the generic `Questions.Shuffle` directly.
- Games.GetTimer: sub-second precision is left out, because `int(time.Since(...).Seconds())` truncates to whole seconds and the clock here is already whole seconds.
- Games.Submit: submissions and guesses are not checked against the roster (game.go:113, 140). An outsider's entry therefore counts toward the closing trigger, and the model keeps this.

## Findings

| source | as written | input that shows it | evidently intended | confidence | as-written member | corrected member |
|---|---|---|---|---|---|---|
| game.go:133 | `answer` is handled in every phase and writes into `CurrentQuestion.Guesses`, which is Go's nil map until the first question is posed | an `answer` request with payload `0` to a game still in `setup` panics and ends the session | guesses are taken only while answers are offered | high (not executed) | Findings.GuessBeforeStartPanics | Findings.GatedStepKeepsWf |
| game.go:258 | a wrong guess indexes `Answers[guess]` without a range check | one player, one answer (the sentinel), guess `5`: the index is out of range and the session panics | guesses name one of the offered answers | high (not executed) | Findings.OutOfRangeGuessPanics | Findings.GatedRunNeverCrashes |
| playgame.go:87-90 | a guess that arrives in `show` is still recorded and, once the count reaches the roster size, scores the whole round again | two players; Pat guesses right, the answer timeout scores the round (Pat 1), then Quinn guesses in `show`; the round is scored again and Pat has 2 | each round is scored once, when its guesses close | high (not executed) | Findings.LateGuessScoresTwice | Findings.GatedScoresOnlyWhenClosing |

=== FILE: chats.dfy ===
/**
 * The game's chat: an append-only message log plus, per reader, a cursor that
 * records how many messages that reader has already been sent. Models chat.go; the
 * HTML a delivery is rendered into is replaced by the sequence of messages itself.
 */
module Chats {

  datatype Message = Message(body: string, name: string)

  /** `cursors` is `PlayerIndex`; a reader without an entry reads as cursor 0. */
  datatype Chat = Chat(cursors: map<string, nat>, messages: seq<Message>)

  /** Go's zero value of `Chat`. */
  const EmptyChat: Chat := Chat(map[], [])

  /** The cursor of reader `id`, as the map lookup `PlayerIndex[id]` returns it. */
  function Cursor(c: Chat, id: string): nat {
    if id in c.cursors then c.cursors[id] else 0
  }

  /** No cursor points past the end of the log. */
  ghost predicate Valid(c: Chat) {
    forall id :: id in c.cursors ==> c.cursors[id] <= |c.messages|
  }

  /** `Chat.AddMessage`: appends one message at the end. */
  function AddMessage(c: Chat, name: string, body: string): (r: Chat)
    ensures |r.messages| == |c.messages| + 1
    ensures r.messages[..|c.messages|] == c.messages
    ensures r.messages[|c.messages|] == Message(body, name)
    ensures r.cursors == c.cursors
    ensures Valid(c) ==> Valid(r)
  {
    Chat(c.cursors, c.messages + [Message(body, name)])
  }

  /**
   * `Chat.GetMessages`: the messages `id` has not been sent yet, in append order,
   * after which `id`'s cursor moves to the end of the log. The empty id reads nothing,
   * and a reader already at the end is sent nothing and keeps its cursor as it is.
   */
  function GetMessages(c: Chat, id: string): (r: (Chat, seq<Message>))
    ensures r.0.messages == c.messages
    ensures id == "" ==> r == (c, [])
    ensures id != "" && Cursor(c, id) < |c.messages| ==>
      r.1 == c.messages[Cursor(c, id)..] && Cursor(r.0, id) == |c.messages| && id in r.0.cursors
    ensures id != "" && Cursor(c, id) >= |c.messages| ==> r == (c, [])
    ensures forall other :: other != id ==>
      (other in r.0.cursors <==> other in c.cursors) && Cursor(r.0, other) == Cursor(c, other)
    ensures Valid(c) ==> Valid(r.0)
  {
    if id == "" then (c, [])
    else if |c.messages| <= Cursor(c, id) then (c, [])
    else (Chat(c.cursors[id := |c.messages|], c.messages), c.messages[Cursor(c, id)..])
  }

  /** A reader's cursor never decreases and, in a valid chat, ends at the end of the log. */
  lemma GetMessagesAdvancesCursor(c: Chat, id: string)
    requires Valid(c)
    requires id != ""
    ensures Cursor(GetMessages(c, id).0, id) == |c.messages|
    ensures Cursor(c, id) <= Cursor(GetMessages(c, id).0, id)
    ensures GetMessages(c, id).1 == c.messages[Cursor(c, id)..]
  {
    if id in c.cursors {
      assert c.cursors[id] <= |c.messages|;
    }
  }

  /** Reading again with nothing added in between sends nothing and changes nothing. */
  lemma SecondReadIsEmpty(c: Chat, id: string)
    requires Valid(c)
    ensures var c1 := GetMessages(c, id).0; GetMessages(c1, id) == (c1, [])
  {
    var c1 := GetMessages(c, id).0;
    if id != "" {
      GetMessagesAdvancesCursor(c, id);
    }
  }

  /** A reader with no cursor is sent the whole log. */
  lemma NewReaderGetsWholeLog(c: Chat, id: string)
    requires id != "" && id !in c.cursors
    ensures GetMessages(c, id).1 == c.messages
  {
  }

  /** One thing that can happen to a chat: a message is added, or someone reads. */
  datatype ChatOp = Add(name: string, body: string) | Read(reader: string)

  /** The chat after one operation. */
  function Apply(c: Chat, op: ChatOp): Chat {
    match op
    case Add(name, body) => AddMessage(c, name, body)
    case Read(id) => GetMessages(c, id).0
  }

  /** What one operation sends to `reader`. */
  function SentTo(c: Chat, op: ChatOp, reader: string): seq<Message> {
    if op.Read? && op.reader == reader then GetMessages(c, reader).1 else []
  }

  /** The chat after `ops`, in order. */
  function Replay(c: Chat, ops: seq<ChatOp>): Chat
    decreases |ops|
  {
    if ops == [] then c else Replay(Apply(c, ops[0]), ops[1..])
  }

  /** Everything `reader` is sent during `ops`, concatenated in delivery order. */
  function DeliveredTo(c: Chat, ops: seq<ChatOp>, reader: string): seq<Message>
    decreases |ops|
  {
    if ops == [] then []
    else SentTo(c, ops[0], reader) + DeliveredTo(Apply(c, ops[0]), ops[1..], reader)
  }

  /** `c'` is a later state of `c` as seen by `reader`: still valid, the old log is a
      prefix of the new one, and `reader`'s cursor has moved forward within bounds. */
  ghost predicate Extends(c: Chat, c': Chat, reader: string) {
    && Valid(c')
    && |c.messages| <= |c'.messages|
    && c'.messages[..|c.messages|] == c.messages
    && Cursor(c, reader) <= Cursor(c', reader) <= |c'.messages|
  }

  /** One operation keeps the chat valid, extends the log, and sends `reader` exactly
      the log between its old and its new cursor. */
  lemma ApplySendsSlice(c: Chat, op: ChatOp, reader: string)
    requires Valid(c)
    requires reader != ""
    ensures Extends(c, Apply(c, op), reader)
    ensures SentTo(c, op, reader) == Apply(c, op).messages[Cursor(c, reader)..Cursor(Apply(c, op), reader)]
  {
    var c1 := Apply(c, op);
    if reader in c.cursors {
      assert c.cursors[reader] <= |c.messages|;
    }
    if op.Read? && op.reader == reader {
      GetMessagesAdvancesCursor(c, reader);
    }
  }

  /**
   * Over any run of adds and reads, the log only grows, `reader`'s cursor only moves
   * forward, and what `reader` is sent is exactly the log between its starting and
   * its final cursor: every message once, in append order.
   */
  lemma {:induction false} DeliveriesAreSlice(c: Chat, ops: seq<ChatOp>, reader: string)
    requires Valid(c)
    requires reader != ""
    ensures Extends(c, Replay(c, ops), reader)
    ensures DeliveredTo(c, ops, reader)
      == Replay(c, ops).messages[Cursor(c, reader)..Cursor(Replay(c, ops), reader)]
    decreases |ops|
  {
    if ops == [] {
      if reader in c.cursors {
        assert c.cursors[reader] <= |c.messages|;
      }
    } else {
      var c1 := Apply(c, ops[0]);
      ApplySendsSlice(c, ops[0], reader);
      DeliveriesAreSlice(c1, ops[1..], reader);
      var c' := Replay(c1, ops[1..]);
      assert Replay(c, ops) == c';
      assert DeliveredTo(c, ops, reader) == SentTo(c, ops[0], reader) + DeliveredTo(c1, ops[1..], reader);
      ExtendsTransitive(c, c1, c', reader);
      JoinSlices(c1.messages, c'.messages, Cursor(c, reader), Cursor(c1, reader), Cursor(c', reader));
    }
  }

  /** A slice of a log followed by the next slice of a longer log is one slice of it. */
  lemma JoinSlices(s1: seq<Message>, s2: seq<Message>, a: nat, b: nat, e: nat)
    requires a <= b <= |s1| <= |s2| && b <= e <= |s2|
    requires s2[..|s1|] == s1
    ensures s1[a..b] + s2[b..e] == s2[a..e]
  {
    assert s1[a..b] == s2[a..b];
  }

  lemma ExtendsTransitive(c: Chat, c1: Chat, c2: Chat, reader: string)
    requires Extends(c, c1, reader) && Extends(c1, c2, reader)
    ensures Extends(c, c2, reader)
  {
    assert c2.messages[..|c.messages|] == c2.messages[..|c1.messages|][..|c.messages|];
  }

  /** A reader who starts without a cursor is sent a prefix of the final log, each message once. */
  lemma NewReaderReceivesPrefix(c: Chat, ops: seq<ChatOp>, reader: string)
    requires Valid(c)
    requires reader != "" && reader !in c.cursors
    ensures Cursor(Replay(c, ops), reader) <= |Replay(c, ops).messages|
    ensures DeliveredTo(c, ops, reader) == Replay(c, ops).messages[..Cursor(Replay(c, ops), reader)]
  {
    DeliveriesAreSlice(c, ops, reader);
  }
}

=== FILE: constants.dfy ===
/**
 * The constants of game.go: phase tags, request kinds, the sentinel author, the
 * chat name used for announcements and the phase time limits (in seconds).
 */
module Constants {

  /** The values `Game.state` and a response's phase tag take. `Temp` only ever appears
      as the tag of an acknowledgement, never as the game's own state. */
  datatype State = Setup | Temp | Pose | OfferAnswers | ShowResults | Final

  /** The request kinds the session loop recognises; anything else is `Unknown`. */
  datatype RequestKind =
    | Join | Start | Poll | End | Next
    | TimeoutQuestion | TimeoutAnswer | TimeoutDisplay
    | Submit | Guess | ChatKind
    | Unknown(name: string)

  /** The wire spelling of each recognised request kind. */
  function KindName(k: RequestKind): string {
    match k
    case Join => "join"
    case Start => "start"
    case Poll => "poll"
    case End => "end"
    case Next => "next"
    case TimeoutQuestion => "questiontimeout"
    case TimeoutAnswer => "answertimeout"
    case TimeoutDisplay => "displaytimeout"
    case Submit => "submit"
    case Guess => "answer"
    case ChatKind => "chat"
    case Unknown(name) => name
  }

  /** Classifies a request-type string the way the `switch` of the session loop does. */
  function ParseKind(s: string): (k: RequestKind)
    ensures KindName(k) == s
    ensures k.Unknown? <==> s !in {"join", "start", "poll", "end", "next", "questiontimeout",
                                   "answertimeout", "displaytimeout", "submit", "answer", "chat"}
  {
    if s == "join" then Join
    else if s == "start" then Start
    else if s == "poll" then Poll
    else if s == "end" then End
    else if s == "next" then Next
    else if s == "questiontimeout" then TimeoutQuestion
    else if s == "answertimeout" then TimeoutAnswer
    else if s == "displaytimeout" then TimeoutDisplay
    else if s == "submit" then Submit
    else if s == "answer" then Guess
    else if s == "chat" then ChatKind
    else Unknown(s)
  }

  /** Every recognised kind is read back from its own spelling. */
  lemma ParseKindName(k: RequestKind)
    requires !k.Unknown?
    ensures ParseKind(KindName(k)) == k
  {
  }

  /** The author of the sentinel answer holding the real completion. */
  const CorrectAnswer: string := "correct"

  /** The chat name announcements are posted under. */
  const AdminName: string := "Admin"

  const TimeoutQuestionSecs: nat := 180
  const TimeoutAnswerSecs: nat := 60
  const TimeoutDisplaySecs: nat := 30

  /** `FromFile` keeps at most this many questions. */
  const RoundCount: nat := 7
}

=== FILE: decimal.dfy ===
/**
 * The two pieces of Go's `strconv`/`fmt` that the game logic depends on:
 * `strconv.Atoi` (used to read a guess index) and `%d` formatting of a count.
 */
module Decimal {
  import opened Wrappers

  /** Bounds of Go's 64-bit `int`; `Atoi` reports a range error outside them. */
  const MinInt: int := -0x8000_0000_0000_0000
  const MaxInt: int := 0x7fff_ffff_ffff_ffff

  predicate IsDigit(c: char) {
    '0' <= c <= '9'
  }

  predicate AllDigits(s: string) {
    forall i :: 0 <= i < |s| ==> IsDigit(s[i])
  }

  function DigitValue(c: char): (d: nat)
    requires IsDigit(c)
    ensures d < 10
  {
    c as int - '0' as int
  }

  function DigitChar(d: nat): (c: char)
    requires d < 10
    ensures IsDigit(c) && DigitValue(c) == d
  {
    ('0' as int + d) as char
  }

  /** The number a string of decimal digits denotes, most significant digit first. */
  function DigitsValue(s: string): nat
    requires AllDigits(s)
  {
    if s == [] then 0 else DigitsValue(s[..|s| - 1]) * 10 + DigitValue(s[|s| - 1])
  }

  /** True when `s` has the shape `strconv.Atoi` accepts in base 10: an optional sign
      followed by at least one decimal digit and nothing else. */
  predicate IsNumeral(s: string) {
    var body := if |s| > 0 && (s[0] == '-' || s[0] == '+') then s[1..] else s;
    |body| > 0 && AllDigits(body)
  }

  /** The value of a numeral, with its sign. */
  function NumeralValue(s: string): int
    requires IsNumeral(s)
  {
    if s[0] == '-' then -(DigitsValue(s[1..]) as int)
    else if s[0] == '+' then DigitsValue(s[1..])
    else DigitsValue(s)
  }

  /** `strconv.Atoi`: a syntax error or a value outside 64 bits yields `None`. */
  function Atoi(s: string): (r: Option<int>)
    ensures r.Some? ==> MinInt <= r.value <= MaxInt
    ensures r.Some? <==> IsNumeral(s) && MinInt <= NumeralValue(s) <= MaxInt
    ensures r.Some? ==> r.value == NumeralValue(s)
  {
    if IsNumeral(s) && MinInt <= NumeralValue(s) <= MaxInt then Some(NumeralValue(s)) else None
  }

  /** `fmt.Sprintf("%d", n)` for a non-negative `n`: shortest decimal digits. */
  function FormatNat(n: nat): (s: string)
    ensures |s| > 0 && AllDigits(s)
    ensures DigitsValue(s) == n
    ensures |s| > 1 ==> s[0] != '0'
  {
    if n < 10 then [DigitChar(n)]
    else
      var prefix := FormatNat(n / 10);
      var s := prefix + [DigitChar(n % 10)];
      assert s[..|s| - 1] == prefix;
      s
  }

  /** Reading back a formatted count gives the count again. */
  lemma AtoiOfFormatNat(n: nat)
    requires n <= MaxInt
    ensures Atoi(FormatNat(n)) == Some(n)
  {
    var s := FormatNat(n);
    assert s[0] != '-' && s[0] != '+' by { assert IsDigit(s[0]); }
  }
}

=== FILE: findings.dfy ===
/**
 * Three ways a single `answer` request breaks the loop as written, because nothing
 * checks the phase or the index of a guess before it reaches `Game.Answer`:
 *   - before the first question is posed the guess map is Go's nil map, and writing to
 *     it panics;
 *   - a guess that arrives after the timeout closed the round fills the map again and
 *     scores the whole round a second time;
 *   - a wrong guess outside the answers indexes past the slice while scoring and panics.
 * `StepGated` is the loop with the evidently intended gate: guesses are taken only
 * while answers are offered, and only for an index among them.
 */
module Findings {
  import opened Wrappers
  import opened Constants
  import opened Decimal
  import opened Questions
  import opened Roster
  import opened Scoring
  import opened Games
  import opened Tags
  import opened Session

  const Pat: Player := Player("p", "Pat", "c", 0)
  const Quinn: Player := Player("q", "Quinn", "c", 0)

  /** A round offered with one decoy (by Quinn) and the sentinel, and Pat's correct guess. */
  const Round: Question :=
    ZeroQuestion.(xid := "b1", answers := [Answer("q", "x"), Answer(CorrectAnswer, "z")],
                  guesses := Some(map["p" := 1]))

  const Guessing: Game := NewGame("g", "c").(players := [Pat, Quinn], current := Round, state := OfferAnswers)

  /** The answer timeout armed for `Round`, and Quinn's guess at the sentinel. */
  const AnswerTimeoutRequest: Request := Request("", "answertimeout", "b1")
  const LateGuess: Request := Request("q", "answer", "1")

  /** A one-player game offering only the sentinel. */
  const Lonely: Game :=
    NewGame("g", "c").(players := [Pat], state := OfferAnswers,
      current := ZeroQuestion.(xid := "b1", answers := [Answer(CorrectAnswer, "z")], guesses := Some(map[])))

  /** Payload digits survive tag stripping and read back as their number. */
  lemma Numeral(n: nat)
    requires n < 10
    ensures Clean(FormatNat(n)) == FormatNat(n) && Atoi(FormatNat(n)) == Some(n)
  {
    NoOpenUnchanged(FormatNat(n));
    AtoiOfFormatNat(n);
  }

  /** As written: an `answer` to a game still in `setup` writes to the nil guess map. */
  lemma GuessBeforeStartPanics(xid: string, code: string, token: string, env: Env)
    ensures Step(NewGame(xid, code), Request(token, "answer", "0"), env) == Crashed(NilMapWrite)
  {
    Numeral(0);
    assert FormatNat(0) == "0";
  }

  /** As written: an index past the answers panics while scoring. */
  lemma OutOfRangeGuessPanics(env: Env)
    ensures Step(Lonely, Request("p", "answer", "5"), env) == Crashed(IndexOutOfRange)
  {
    Numeral(5);
    assert FormatNat(5) == "5";
    var g1 := Lonely.(current := Lonely.current.(guesses := Some(map["p" := 5])));
    assert CorrectOf(g1) == 0;
    assert GuessMap(g1.current) == map["p" := 5];
    assert "p" in GuessMap(g1.current).Keys;
    assert Judge(g1.current.answers, 0, "p", 5).OutOfRange?;
    assert AnyOutOfRange(g1.current.answers, 0, GuessMap(g1.current), GuessMap(g1.current).Keys);
  }

  /** Scoring the round gives Pat its one point. */
  lemma RoundScoresPat(now: int)
    ensures var r := CloseGuessSubmissions(Guessing, now);
      r.Done? && r.game.players[0].score == 1
  {
    var r := CloseGuessSubmissions(Guessing, now);
    assert CorrectOf(Guessing) == 1;
    assert GuessMap(Round) == map["p" := 1];
    assert IndexOf(Guessing.players, "p") == Some(0);
    assert Judge(Round.answers, 1, "p", 1) == PointTo("p");
    assert !AnyOutOfRange(Round.answers, 1, map["p" := 1], {"p"});
    assert Beneficiaries(Round.answers, 1, map["p" := 1], {"p"}, "p") == {"p"};
    assert Guessing.players[0].xid == "p";
    assert GuessMap(Guessing.current).Keys == {"p"};
    assert |Beneficiaries(Round.answers, 1, map["p" := 1], {"p"}, "p")| == 1;
    assert r.game.players[0].score == Guessing.players[0].score + 1;
  }

  /** The round has been scored once, with Pat's point, and its results are showing. */
  ghost predicate ShownOnce(g: Game) {
    && g.state == ShowResults
    && g.current.answers == Round.answers && g.current.guesses == Round.guesses
    && |g.players| == 2 && g.players[0].xid == "p" && g.players[1].xid == "q"
    && g.players[0].score == 1
  }

  /** The answer timeout scores Pat's correct guess and shows the results. */
  lemma TimeoutScoresRound(e: Env)
    ensures var o := Step(Guessing, AnswerTimeoutRequest, e);
      o.Continue? && ShownOnce(o.game)
  {
    NoOpenUnchanged("b1");
    assert Clean("b1") == "b1";
    assert ParseKind("answertimeout") == TimeoutAnswer;
    assert Step(Guessing, AnswerTimeoutRequest, e) == OnAnswerTimeout(Guessing, "b1", e.now);
    RoundScoresPat(e.now);
  }

  /** Both guesses of the refilled round are correct, so only Pat's gives Pat a point. */
  lemma RefilledGuessesJudged()
    ensures var m := map["p" := 1, "q" := 1];
      && !AnyOutOfRange(Round.answers, 1, m, m.Keys)
      && Beneficiaries(Round.answers, 1, m, m.Keys, "p") == {"p"}
  {
    var m := map["p" := 1, "q" := 1];
    assert m.Keys == {"p", "q"};
    assert Judge(Round.answers, 1, "p", 1) == PointTo("p");
    assert Judge(Round.answers, 1, "q", 1) == PointTo("q");
    forall u | u in m.Keys ensures Judge(Round.answers, 1, u, m[u]) == PointTo(u) {
      assert m[u] == 1;
    }
  }

  /** Scoring the refilled round gives Pat a second point for the same guess. */
  lemma RescoredRoundScoresPat(g: Game, now: int)
    requires g.current.answers == Round.answers && g.current.guesses == Some(map["p" := 1, "q" := 1])
    requires |g.players| == 2 && g.players[0].xid == "p" && g.players[1].xid == "q"
    requires g.players[0].score == 1
    ensures var r := CloseGuessSubmissions(g, now);
      r.Done? && r.game.players[0].score == 2
  {
    var m := map["p" := 1, "q" := 1];
    var r := CloseGuessSubmissions(g, now);
    assert CorrectOf(g) == 1;
    assert GuessMap(g.current) == m;
    assert IndexOf(g.players, "p") == Some(0);
    RefilledGuessesJudged();
    assert |Beneficiaries(Round.answers, 1, m, m.Keys, "p")| == 1;
    assert r.game.players[0].score == g.players[0].score + 1;
  }

  /** Pat holds two points after a round that gave it one. */
  ghost predicate ScoredTwice(o: Outcome) {
    o.Continue? && |o.game.players| > 0 && o.game.players[0].score == 2
  }

  /** A guess by Quinn into a round already shown scores all of it again. */
  lemma LateGuessRescores(g: Game, e: Env)
    requires ShownOnce(g)
    ensures ScoredTwice(Step(g, LateGuess, e))
  {
    Numeral(1);
    assert FormatNat(1) == "1";
    assert ParseKind("answer") == Guess;
    assert Step(g, LateGuess, e) == OnGuess(g, "q", "1", e.now);
    assert !HasAnswered(g.current, "q");
    var m := map["p" := 1, "q" := 1];
    assert g.current.guesses.value["q" := 1] == m;
    var g1 := g.(current := g.current.(guesses := Some(m)));
    assert |m| == 2 by {
      assert m.Keys == {"p", "q"};
    }
    assert RecordGuess(g, "q", "1", e.now) == CloseGuessSubmissions(g1, e.now);
    RescoredRoundScoresPat(g1, e.now);
  }

  /** As written: the answer timeout scores the round and shows the results; Quinn's
      guess arriving after that scores the round again, and Pat's one correct guess
      counts twice. */
  lemma LateGuessScoresTwice(e1: Env, e2: Env)
    ensures Step(Guessing, AnswerTimeoutRequest, e1).Continue?
    ensures ShownOnce(Step(Guessing, AnswerTimeoutRequest, e1).game)
    ensures ScoredTwice(Step(Step(Guessing, AnswerTimeoutRequest, e1).game, LateGuess, e2))
  {
    TimeoutScoresRound(e1);
    LateGuessRescores(Step(Guessing, AnswerTimeoutRequest, e1).game, e2);
  }

  /** Every recorded guess indexes one of the current answers. */
  ghost predicate GuessesInRange(q: Question) {
    q.guesses.Some? && forall u :: u in q.guesses.value ==> 0 <= q.guesses.value[u] < |q.answers|
  }

  /** While submissions or guesses are open, the guess map exists and holds only indices
      of answers. */
  ghost predicate Wf(g: Game) {
    (g.state == Pose || g.state == OfferAnswers) ==> GuessesInRange(g.current)
  }

  /** The evidently intended gate: a guess is taken only while answers are offered, and
      only when it names one of them (a payload that is no number is ignored anyway). */
  function GuessAdmissible(g: Game, payload: string): (r: bool)
    ensures r ==> g.state == OfferAnswers
    ensures r && Atoi(payload).Some? ==> 0 <= Atoi(payload).value < |g.current.answers|
  {
    g.state == OfferAnswers && (Atoi(payload).Some? ==> 0 <= Atoi(payload).value < |g.current.answers|)
  }

  /** The loop with the gate in front of `Game.Answer`; a refused guess is acknowledged
      and changes nothing. Every other request is handled as before. */
  ghost function StepGated(g: Game, req: Request, env: Env): (o: Outcome)
    ensures ParseKind(req.kind) != Guess ==> o == Step(g, req, env)
    ensures ParseKind(req.kind) == Guess && g.state != OfferAnswers ==>
      o == Continue(g, Ack(g, "Got it!", "", env.now))
    ensures ParseKind(req.kind) == Guess && GuessAdmissible(g, Clean(req.payload)) ==>
      o == Step(g, req, env)
  {
    if ParseKind(req.kind) == Guess && !GuessAdmissible(g, Clean(req.payload)) then
      Continue(g, Ack(g, "Got it!", "", env.now))
    else Step(g, req, env)
  }

  /** The first game of every session satisfies the invariant. */
  lemma NewGameWf(xid: string, code: string)
    ensures Wf(NewGame(xid, code))
  {
  }

  /** Submissions only add answers, so guesses stay in range. */
  lemma SubmitKeepsWf(g: Game, token: string, payload: string, draw: nat -> nat, now: int)
    requires Wf(g) && g.state == Pose
    ensures Wf(Games.Submit(g, token, payload, draw, now))
  {
    var r := Games.Submit(g, token, payload, draw, now);
    if !HasSubmitted(g.current, token) && |g.current.answers| + 1 == |g.players| {
      var g1 := g.(current := g.current.(answers := g.current.answers + [Answer(token, payload)]));
      CloseKeepsWf(g1, draw, now);
    }
  }

  /** Closing submissions keeps the guesses and does not shrink the answers. */
  lemma CloseKeepsWf(g: Game, draw: nat -> nat, now: int)
    requires GuessesInRange(g.current)
    ensures GuessesInRange(CloseQuestionSubmissions(g, draw, now).current)
  {
    var r := CloseQuestionSubmissions(g, draw, now);
    if !HasSubmitted(g.current, CorrectAnswer) {
      assert |multiset(r.current.answers)| == |multiset(g.current.answers)| + 1;
    }
  }

  /** With every guess in range, scoring cannot panic. */
  lemma InRangeScoringSucceeds(g: Game, now: int)
    requires GuessesInRange(g.current)
    ensures CloseGuessSubmissions(g, now).Done?
  {
    var m := GuessMap(g.current);
    forall u | u in m.Keys ensures !Judge(g.current.answers, CorrectOf(g), u, m[u]).OutOfRange? {
    }
  }

  /** An admitted guess never panics and leaves the guesses in range. */
  lemma AdmittedGuessKeepsWf(g: Game, token: string, payload: string, now: int)
    requires Wf(g) && GuessAdmissible(g, payload)
    ensures RecordGuess(g, token, payload, now).Done?
    ensures Wf(RecordGuess(g, token, payload, now).game)
  {
    if !HasAnswered(g.current, token) && Atoi(payload).Some? {
      var m := g.current.guesses.value[token := Atoi(payload).value];
      var g1 := g.(current := g.current.(guesses := Some(m)));
      assert GuessesInRange(g1.current);
      if |m| == |g.players| {
        InRangeScoringSucceeds(g1, now);
      }
    }
  }

  /** The phase-changing requests other than guessing keep the invariant. */
  lemma PhaseStepsKeepWf(g: Game, token: string, payload: string, env: Env)
    requires Wf(g)
    ensures Wf(OnStart(g, env).game)
    ensures Wf(OnSubmit(g, token, payload, env).game)
    ensures Wf(OnNext(g, env.now).game)
    ensures Wf(OnQuestionTimeout(g, payload, env).game)
  {
    if g.state == Pose {
      SubmitKeepsWf(g, token, payload, env.draw, env.now);
      if g.current.xid == payload {
        CloseKeepsWf(g, env.draw, env.now);
      }
    }
  }

  /** An admitted guess and an answer timeout never panic when every guess is in range. */
  lemma GuessStepsKeepWf(g: Game, token: string, payload: string, now: int)
    requires Wf(g)
    ensures GuessAdmissible(g, payload) ==> OnGuess(g, token, payload, now).Continue?
    ensures GuessAdmissible(g, payload) ==> Wf(OnGuess(g, token, payload, now).game)
    ensures OnAnswerTimeout(g, payload, now).Continue?
    ensures Wf(OnAnswerTimeout(g, payload, now).game)
  {
    if GuessAdmissible(g, payload) {
      AdmittedGuessKeepsWf(g, token, payload, now);
    }
    if g.state == OfferAnswers && g.current.xid == payload {
      InRangeScoringSucceeds(g, now);
    }
  }

  /** Every handler the loop dispatches to keeps the invariant, and none panics once a
      guess has passed the gate. */
  lemma DispatchKeepsWf(g: Game, kind: RequestKind, token: string, payload: string, env: Env)
    requires Wf(g)
    requires kind == Guess ==> GuessAdmissible(g, payload)
    ensures !Dispatch(g, kind, token, payload, env).Crashed?
    ensures Dispatch(g, kind, token, payload, env).Continue? ==>
      Wf(Dispatch(g, kind, token, payload, env).game)
  {
    match kind
    case Start => PhaseStepsKeepWf(g, token, payload, env);
    case Submit => PhaseStepsKeepWf(g, token, payload, env);
    case Next => PhaseStepsKeepWf(g, token, payload, env);
    case TimeoutQuestion => PhaseStepsKeepWf(g, token, payload, env);
    case Guess => GuessStepsKeepWf(g, token, payload, env.now);
    case TimeoutAnswer => GuessStepsKeepWf(g, token, payload, env.now);
    case _ =>
  }

  /** With the guess gate, no request panics, and every step keeps the invariant. */
  lemma GatedStepKeepsWf(g: Game, req: Request, env: Env)
    requires Wf(g)
    ensures !StepGated(g, req, env).Crashed?
    ensures StepGated(g, req, env).Continue? ==> Wf(StepGated(g, req, env).game)
  {
    var kind, payload := ParseKind(req.kind), Clean(req.payload);
    if !(kind == Guess && !GuessAdmissible(g, payload)) {
      DispatchKeepsWf(g, kind, req.token, payload, env);
      assert StepGated(g, req, env) == Dispatch(g, kind, req.token, payload, env);
    }
  }

  /** Outside a gated-out guess, the handlers only append players, and they change an
      existing player only when a round's guesses are scored. */
  lemma DispatchScoresOnlyWhenClosing(g: Game, kind: RequestKind, token: string, payload: string, env: Env)
    requires kind == Guess ==> GuessAdmissible(g, payload)
    ensures var o := Dispatch(g, kind, token, payload, env);
      o.Continue? ==> |g.players| <= |o.game.players|
    ensures var o := Dispatch(g, kind, token, payload, env);
      o.Continue? && o.game.players[..|g.players|] != g.players ==>
        g.state == OfferAnswers && o.game.state == ShowResults
  {
    var o := Dispatch(g, kind, token, payload, env);
    match kind
    case Join =>
      assert o.game.players[..|g.players|] == g.players;
    case Guess =>
      assert o == OnGuess(g, token, payload, env.now);
    case TimeoutAnswer =>
    case _ =>
  }

  /** With the guess gate, scores change only when a round's guesses are scored, which
      happens once per round: on the move from offering answers to showing results. */
  lemma GatedScoresOnlyWhenClosing(g: Game, req: Request, env: Env)
    ensures var o := StepGated(g, req, env);
      o.Continue? ==> |g.players| <= |o.game.players|
    ensures var o := StepGated(g, req, env);
      o.Continue? && o.game.players[..|g.players|] != g.players ==>
        g.state == OfferAnswers && o.game.state == ShowResults
  {
    var kind, payload := ParseKind(req.kind), Clean(req.payload);
    if !(kind == Guess && !GuessAdmissible(g, payload)) {
      DispatchScoresOnlyWhenClosing(g, kind, req.token, payload, env);
      assert StepGated(g, req, env) == Dispatch(g, kind, req.token, payload, env);
    } else {
      assert StepGated(g, req, env).game == g;
    }
  }

  /** The corrected run: the loop of `Run` with `StepGated` in place of `Step`. */
  ghost function RunGated(g: Game, inputs: seq<(Request, Env)>): (t: Trace)
    ensures |t.responses| <= |inputs|
    ensures !t.ended && t.crash.None? ==> |t.responses| == |inputs|
    decreases |inputs|
  {
    if inputs == [] then Trace(g, [], false, None)
    else match StepGated(g, inputs[0].0, inputs[0].1)
      case Stop(resp) => Trace(g, [resp], true, None)
      case Crashed(reason) => Trace(g, [], false, Some(reason))
      case Continue(g1, resp) =>
        var t := RunGated(g1, inputs[1..]);
        t.(responses := [resp] + t.responses)
  }

  /** A session started from a fresh game never panics, whatever the requests and
      whenever they come, and answers every request up to the first `end`. */
  lemma {:induction false} GatedRunNeverCrashes(g: Game, inputs: seq<(Request, Env)>)
    requires Wf(g)
    ensures RunGated(g, inputs).crash.None?
    ensures !RunGated(g, inputs).ended ==> |RunGated(g, inputs).responses| == |inputs|
    decreases |inputs|
  {
    if inputs != [] {
      GatedStepKeepsWf(g, inputs[0].0, inputs[0].1);
      match StepGated(g, inputs[0].0, inputs[0].1)
      case Stop(_) =>
      case Crashed(_) =>
        assert false;
      case Continue(g1, _) =>
        GatedRunNeverCrashes(g1, inputs[1..]);
    }
  }
}

=== FILE: games.dfy ===
/**
 * One game and the operations game.go defines on it. Every operation is a pure
 * function from the game before to the game after; the clock is the parameter `now`
 * (whole seconds), the random source of a shuffle is the parameter `draw`, and fresh
 * identifiers are parameters too. Timer arming is not part of this module: timeouts
 * arrive as ordinary requests (see the Session module).
 */
module Games {
  import opened Wrappers
  import opened Constants
  import opened Decimal
  import opened Questions
  import opened Chats
  import opened Roster
  import opened Scoring
  import opened Standings

  datatype Game = Game(
    xid: string,
    accessCode: string,
    players: seq<Player>,
    questions: seq<Question>,
    done: seq<Question>,
    current: Question,
    chat: Chat,
    state: State)

  /** The game the session loop starts from: nothing but its ids, in `setup`. */
  function NewGame(xid: string, accessCode: string): (g: Game)
    ensures g.xid == xid && g.accessCode == accessCode && g.state == Setup
    ensures g.players == [] && g.questions == [] && g.done == [] && g.chat == EmptyChat
    ensures g.current.xid == "" && g.current.guesses.None?
  {
    Game(xid, accessCode, [], [], [], ZeroQuestion, EmptyChat, Setup)
  }

  /** The only way joining can fail. */
  datatype JoinError = NameInUse

  /** `Game.AddPlayer`: a new player with id `newId` and score 0 joins, unless the name is
      already in use, in which case nothing changes. */
  function AddPlayer(g: Game, name: string, newId: string): (r: Result<(Game, Player), JoinError>)
    ensures r.Failure? <==> exists i :: 0 <= i < |g.players| && g.players[i].name == name
    ensures r.Success? ==> r.value.1 == Player(newId, name, g.accessCode, 0)
    ensures r.Success? ==> r.value.0 == g.(players := g.players + [r.value.1])
  {
    if NameTaken(g.players, name) then Failure(NameInUse)
    else
      var p := Player(newId, name, g.accessCode, 0);
      Success((g.(players := g.players + [p]), p))
  }

  /** Seconds left of a countdown of `limit` seconds, `elapsed` seconds in, floored at 0. */
  function Remaining(limit: int, elapsed: int): (r: nat)
    ensures r == 0 <==> elapsed >= limit
    ensures elapsed <= limit ==> r + elapsed == limit
    ensures 0 <= elapsed ==> r <= limit || limit < 0
  {
    if limit - elapsed < 0 then 0 else limit - elapsed
  }

  /** `Game.GetTimer`: the countdown of the current phase, or `None` (the empty text) in a
      phase without one. */
  function GetTimer(g: Game, now: int): (r: Option<nat>)
    ensures r.Some? <==> g.state == Pose || g.state == OfferAnswers || g.state == ShowResults
    ensures g.state == Pose ==> r == Some(Remaining(TimeoutQuestionSecs, now - g.current.posed))
    ensures g.state == OfferAnswers ==> r == Some(Remaining(TimeoutAnswerSecs, now - g.current.guessed))
    ensures g.state == ShowResults ==> r == Some(Remaining(TimeoutDisplaySecs, now - g.current.results))
  {
    match g.state
    case Pose => Some(Remaining(TimeoutQuestionSecs, now - g.current.posed))
    case OfferAnswers => Some(Remaining(TimeoutAnswerSecs, now - g.current.guessed))
    case ShowResults => Some(Remaining(TimeoutDisplaySecs, now - g.current.results))
    case _ => None
  }

  /** The countdown never goes up as time passes, and never shows more than the limit once
      the phase has begun. */
  lemma TimerCountsDown(g: Game, now1: int, now2: int)
    requires now1 <= now2
    requires GetTimer(g, now1).Some?
    ensures GetTimer(g, now2).Some?
    ensures GetTimer(g, now2).value <= GetTimer(g, now1).value
    ensures g.state == Pose && now1 >= g.current.posed ==> GetTimer(g, now1).value <= TimeoutQuestionSecs
    ensures g.state == OfferAnswers && now1 >= g.current.guessed ==> GetTimer(g, now1).value <= TimeoutAnswerSecs
    ensures g.state == ShowResults && now1 >= g.current.results ==> GetTimer(g, now1).value <= TimeoutDisplaySecs
  {
  }

  /** `Game.SetState`: entering a new phase records when it began; re-entering the current
      phase changes nothing. */
  function SetState(g: Game, s: State, now: int): (r: Game)
    ensures r.state == s
    ensures s == g.state ==> r == g
    ensures r == g.(state := s, current := r.current)
    ensures s != g.state && s == Pose ==> r.current == g.current.(posed := now)
    ensures s != g.state && s == OfferAnswers ==> r.current == g.current.(guessed := now)
    ensures s != g.state && s == ShowResults ==> r.current == g.current.(results := now)
    ensures s != Pose && s != OfferAnswers && s != ShowResults ==> r.current == g.current
  {
    if s == g.state then g
    else
      var q := match s
        case ShowResults => g.current.(results := now)
        case OfferAnswers => g.current.(guessed := now)
        case Pose => g.current.(posed := now)
        case _ => g.current;
      g.(state := s, current := q)
  }

  /** The announcement `PlayQuestion` and `next` post. */
  function BooksLeft(n: nat): (r: string)
    ensures |r| == |FormatNat(n)| + 22
    ensures r[..10] == "There are " && r[10..10 + |FormatNat(n)|] == FormatNat(n)
    ensures r[10 + |FormatNat(n)|..] == " books left."
  {
    "There are " + FormatNat(n) + " books left."
  }

  /**
   * `Game.PlayQuestion`: files the current question (if it has an id) with the finished
   * ones, then either ends the game when no question is left, or announces the count and
   * makes the next question current with no guesses, posed `now`.
   */
  function PlayQuestion(g: Game, now: int): (r: Game)
    ensures g.current.xid != "" ==> r.done == g.done + [g.current]
    ensures g.current.xid == "" ==> r.done == g.done
    ensures r.players == g.players && r.xid == g.xid && r.accessCode == g.accessCode
    ensures g.questions == [] ==>
      r.state == Final && r.questions == [] && r.current == g.current && r.chat == g.chat
    ensures g.questions != [] ==>
      && r.state == Pose
      && r.current == g.questions[0].(guesses := Some(map[]), posed := now)
      && r.questions == g.questions[1..]
      && |r.questions| == |g.questions| - 1
      && r.chat == AddMessage(g.chat, AdminName, BooksLeft(|g.questions|))
  {
    var done := if g.current.xid != "" then g.done + [g.current] else g.done;
    if g.questions == [] then
      SetState(g.(done := done), Final, now)
    else
      var chat := AddMessage(g.chat, AdminName, BooksLeft(|g.questions|));
      var q := g.questions[0].(guesses := Some(map[]), posed := now);
      SetState(g.(done := done, chat := chat, current := q, questions := g.questions[1..]), Pose, now)
  }

  /**
   * `Game.CloseQuestionSubmissions`: unless the sentinel is already among the answers, adds
   * it (always with the question's first line) and shuffles; either way the game moves to
   * `answer`, with the guessing phase starting `now`.
   */
  function CloseQuestionSubmissions(g: Game, draw: nat -> nat, now: int): (r: Game)
    ensures r.state == OfferAnswers
    ensures HasSubmitted(g.current, CorrectAnswer) ==> r.current.answers == g.current.answers
    ensures !HasSubmitted(g.current, CorrectAnswer) ==>
      multiset(r.current.answers) == multiset(g.current.answers) + multiset{Answer(CorrectAnswer, g.current.first)}
    ensures !HasSubmitted(g.current, CorrectAnswer) ==> CountBy(r.current.answers, CorrectAnswer) == 1
    ensures r == g.(state := OfferAnswers, current := g.current.(answers := r.current.answers, guessed := now))
  {
    var answers :=
      if HasSubmitted(g.current, CorrectAnswer) then g.current.answers
      else Shuffle(g.current.answers + [Answer(CorrectAnswer, g.current.first)], draw);
    SeededOnce(g.current.answers, g.current.first, draw);
    var r := SetState(g.(current := g.current.(answers := answers)), OfferAnswers, now);
    r.(current := r.current.(guessed := now))
  }

  /** Shuffling in the sentinel after a round without one leaves exactly one sentinel. */
  lemma SeededOnce(answers: seq<Answer>, first: string, draw: nat -> nat)
    ensures !Authored(answers, CorrectAnswer) ==>
      CountBy(Shuffle(answers + [Answer(CorrectAnswer, first)], draw), CorrectAnswer) == 1
  {
    var seeded := answers + [Answer(CorrectAnswer, first)];
    CountByPermutation(Shuffle(seeded, draw), seeded, CorrectAnswer);
    CountByAppend(answers, [Answer(CorrectAnswer, first)], CorrectAnswer);
  }

  /**
   * `Game.Submit`: a second submission from the same id changes nothing; otherwise the
   * answer is appended, and when that makes the number of answers equal to the number of
   * players the submissions close at once. No one checks that `id` is a player.
   */
  function Submit(g: Game, id: string, payload: string, draw: nat -> nat, now: int): (r: Game)
    ensures HasSubmitted(g.current, id) ==> r == g
    ensures !HasSubmitted(g.current, id) && |g.current.answers| + 1 != |g.players| ==>
      r == g.(current := g.current.(answers := g.current.answers + [Answer(id, payload)]))
    ensures !HasSubmitted(g.current, id) && |g.current.answers| + 1 == |g.players| ==>
      r == CloseQuestionSubmissions(
        g.(current := g.current.(answers := g.current.answers + [Answer(id, payload)])), draw, now)
    ensures g.state != OfferAnswers ==>
      (r.state == OfferAnswers <==> !HasSubmitted(g.current, id) && |g.current.answers| + 1 == |g.players|)
  {
    if HasSubmitted(g.current, id) then g
    else
      var g1 := g.(current := g.current.(answers := g.current.answers + [Answer(id, payload)]));
      if |g1.current.answers| == |g1.players| then CloseQuestionSubmissions(g1, draw, now) else g1
  }

  /** Why the session goroutine would panic. */
  datatype CrashReason = NilMapWrite | IndexOutOfRange

  /** The result of an operation that may panic. */
  datatype Run = Done(game: Game) | Crash(reason: CrashReason)

  /** The keys of the current guesses, and the sentinel's index, as scoring sees them. */
  function CorrectOf(g: Game): nat {
    CorrectIndex(g.current.answers)
  }

  /**
   * `Game.CloseGuessSubmissions`: scores every guess (in some map-iteration order) and moves
   * to `show`. It panics iff some wrong guess indexes outside the answers; otherwise each
   * player's new score is its old one plus the number of guesses that give it a point, a
   * figure that depends on no iteration order.
   */
  ghost function CloseGuessSubmissions(g: Game, now: int): (r: Run)
    ensures r.Crash? <==>
      AnyOutOfRange(g.current.answers, CorrectOf(g), GuessMap(g.current), GuessMap(g.current).Keys)
    ensures r.Crash? ==> r.reason == IndexOutOfRange
    ensures r.Done? ==> r.game.state == ShowResults
    ensures r.Done? ==> SameIds(g.players, r.game.players)
    ensures r.Done? ==> forall i :: 0 <= i < |g.players| ==>
      r.game.players[i].score == g.players[i].score +
        (if IndexOf(g.players, g.players[i].xid) == Some(i)
         then |Beneficiaries(g.current.answers, CorrectOf(g), GuessMap(g.current),
                             GuessMap(g.current).Keys, g.players[i].xid)|
         else 0)
    ensures r.Done? ==> LogGrows(g.chat, r.game.chat)
    ensures r.Done? ==> r.game.current.answers == g.current.answers && r.game.current.guesses == g.current.guesses
    ensures r.Done? ==> r.game.questions == g.questions && r.game.done == g.done
    ensures r.Done? ==> r.game == SetState(g.(players := r.game.players, chat := r.game.chat), ShowResults, now)
  {
    match ScoreRound(g.players, g.chat, g.current.answers, CorrectOf(g), GuessMap(g.current))
    case Panicked => Crash(IndexOutOfRange)
    case Tally(players, chat) =>
      Done(SetState(g.(players := players, chat := chat), ShowResults, now))
  }

  /** The chat after closing a round's guesses: the old log and cursors, then one admin
      callout per player who guessed their own answer, naming that player, whatever the
      map order. */
  lemma CloseGuessSubmissionsCallouts(g: Game, now: int)
    ensures var r := CloseGuessSubmissions(g, now);
      r.Done? ==> r.game.chat.cursors == g.chat.cursors && r.game.chat.messages[..|g.chat.messages|] == g.chat.messages
    ensures var r := CloseGuessSubmissions(g, now);
      var selfs := SelfGuessers(g.current.answers, CorrectOf(g), GuessMap(g.current), GuessMap(g.current).Keys);
      r.Done? ==> |r.game.chat.messages| == |g.chat.messages| + |selfs|
    ensures var r := CloseGuessSubmissions(g, now);
      var selfs := SelfGuessers(g.current.answers, CorrectOf(g), GuessMap(g.current), GuessMap(g.current).Keys);
      r.Done? ==> forall k :: |g.chat.messages| <= k < |r.game.chat.messages| ==>
        exists u :: u in selfs && r.game.chat.messages[k] == CalloutFrom(g.players, u)
    ensures var r := CloseGuessSubmissions(g, now);
      var selfs := SelfGuessers(g.current.answers, CorrectOf(g), GuessMap(g.current), GuessMap(g.current).Keys);
      r.Done? ==> forall u :: u in selfs ==> CalloutFrom(g.players, u) in r.game.chat.messages[|g.chat.messages|..]
  {
    ScoreRoundCallouts(g.players, g.chat, g.current.answers, CorrectOf(g), GuessMap(g.current));
  }

  /**
   * `Game.Answer`: a second guess from the same id, or a payload that is not an integer,
   * changes nothing. Otherwise the guess is recorded -- a panic when the guesses are still
   * Go's nil map -- and when the number of guesses reaches the number of players, scoring
   * runs at once. Neither the phase, the id nor the index range is checked.
   */
  ghost function RecordGuess(g: Game, id: string, payload: string, now: int): (r: Run)
    ensures HasAnswered(g.current, id) || Atoi(payload).None? ==> r == Done(g)
    ensures !HasAnswered(g.current, id) && Atoi(payload).Some? && g.current.guesses.None? ==>
      r == Crash(NilMapWrite)
    ensures !HasAnswered(g.current, id) && Atoi(payload).Some? && g.current.guesses.Some? ==>
      var recorded := g.(current := g.current.(guesses := Some(g.current.guesses.value[id := Atoi(payload).value])));
      && |recorded.current.guesses.value| == |g.current.guesses.value| + 1
      && (|recorded.current.guesses.value| != |g.players| ==> r == Done(recorded))
      && (|recorded.current.guesses.value| == |g.players| ==> r == CloseGuessSubmissions(recorded, now))
  {
    if HasAnswered(g.current, id) then Done(g)
    else match Atoi(payload)
      case None => Done(g)
      case Some(v) =>
        match g.current.guesses
        case None => Crash(NilMapWrite)
        case Some(m) =>
          var g1 := g.(current := g.current.(guesses := Some(m[id := v])));
          if |m[id := v]| == |g.players| then CloseGuessSubmissions(g1, now) else Done(g1)
  }

  /** Keeps the first `RoundCount` questions (the cut at the end of `FromFile`). */
  function Truncate(qs: seq<Question>): (r: seq<Question>)
    ensures |r| == if |qs| > RoundCount then RoundCount else |qs|
    ensures r == qs[..|r|]
  {
    if |qs| > RoundCount then qs[..RoundCount] else qs
  }

  /**
   * `Game.Start`: loads the question pool (`pool`, `None` when the file cannot be read or
   * decoded; the ids are already assigned), shuffles it, keeps at most seven, and plays the
   * first. A failed load changes nothing.
   */
  function Start(g: Game, pool: Option<seq<Question>>, draw: nat -> nat, now: int): (r: Game)
    ensures pool.None? ==> r == g
    ensures pool.Some? && pool.value == [] ==> r.state == Final && r.questions == []
    ensures pool.Some? && pool.value != [] ==>
      && r.state == Pose
      && r.current.guesses == Some(map[])
      && 1 + |r.questions| == (if |pool.value| > RoundCount then RoundCount else |pool.value|)
      && (exists q :: q in pool.value && r.current == q.(guesses := Some(map[]), posed := now)
           && multiset{q} + multiset(r.questions) <= multiset(pool.value))
  {
    match pool
    case None => g
    case Some(qs) =>
      var kept := Truncate(Shuffle(qs, draw));
      TruncateKeepsPool(Shuffle(qs, draw), qs);
      PlayFromPool(g, kept, qs, now);
      PlayQuestion(g.(questions := kept), now)
  }

  /** Keeping a prefix of a shuffled pool keeps only pool questions. */
  lemma TruncateKeepsPool(shuffled: seq<Question>, pool: seq<Question>)
    requires multiset(shuffled) == multiset(pool)
    ensures multiset(Truncate(shuffled)) <= multiset(pool)
    ensures |Truncate(shuffled)| == if |pool| > RoundCount then RoundCount else |pool|
  {
    var kept := Truncate(shuffled);
    assert shuffled == kept + shuffled[|kept|..];
    assert |shuffled| == |pool| by {
      assert |multiset(shuffled)| == |multiset(pool)|;
    }
  }

  /** Playing a selection drawn from a pool poses a pool question and leaves waiting only
      pool questions other than that one. */
  lemma PlayFromPool(g: Game, kept: seq<Question>, pool: seq<Question>, now: int)
    requires multiset(kept) <= multiset(pool)
    ensures var r := PlayQuestion(g.(questions := kept), now);
      kept != [] ==>
        && r.state == Pose
        && r.current.guesses == Some(map[])
        && 1 + |r.questions| == |kept|
        && (exists q :: q in pool && r.current == q.(guesses := Some(map[]), posed := now)
                     && multiset{q} + multiset(r.questions) <= multiset(pool))
  {
    if kept != [] {
      var r := PlayQuestion(g.(questions := kept), now);
      assert kept == [kept[0]] + kept[1..];
      assert multiset(kept) == multiset{kept[0]} + multiset(kept[1..]);
      assert kept[0] in multiset(pool);
      assert r.current == kept[0].(guesses := Some(map[]), posed := now) && r.questions == kept[1..];
    }
  }

  /** What a player's screen shows: the data `ShowGame` renders, without the markup. */
  datatype View =
    | Blank
    | Text(message: string)
    | SetupPrompt
    | Compose(summary: string)
    | AwaitSubmissions
    | Choices(texts: seq<string>)
    | AwaitGuesses
    | Results(answers: seq<Answer>, guesses: map<string, int>)
    | FinalStandings(result: Summary)

  /** `Game.ShowGame` for the player `token`. */
  function ShowGame(g: Game, token: string): (v: View)
    ensures g.state == Pose ==> (v == AwaitSubmissions <==> HasSubmitted(g.current, token))
    ensures g.state == OfferAnswers ==> (v == AwaitGuesses <==> HasAnswered(g.current, token))
    ensures g.state == OfferAnswers && v.Choices? ==> |v.texts| == |g.current.answers|
    ensures g.state == OfferAnswers && v.Choices? ==>
      forall i :: 0 <= i < |v.texts| ==> v.texts[i] == g.current.answers[i].text
    ensures g.state == Final ==> v == FinalStandings(FinalResult(g.players, g.done))
    ensures g.state == Temp ==> v == Blank
  {
    match g.state
    case Setup => SetupPrompt
    case Pose => if HasSubmitted(g.current, token) then AwaitSubmissions else Compose(g.current.summary)
    case OfferAnswers =>
      if HasAnswered(g.current, token) then AwaitGuesses
      else Choices(seq(|g.current.answers|, i requires 0 <= i < |g.current.answers| => g.current.answers[i].text))
    case ShowResults => Results(g.current.answers, GuessMap(g.current))
    case Final => FinalStandings(FinalResult(g.players, g.done))
    case Temp => Blank
  }
}

=== FILE: questions.dfy ===
/**
 * A question (one book) and the per-round data it carries: the submitted answers,
 * the guesses, and the timestamps of each phase. Models question.go.
 */
module Questions {
  import opened Wrappers
  import opened Constants

  /** The two values of `Kind`: which continuation is the real one. */
  const FirstLine: string := "first"
  const LastLine: string := "last"

  /** One submission: who wrote it and the sentence itself. */
  datatype Answer = Answer(user: string, text: string)

  /**
   * A question record. `guesses` is `None` while it is Go's nil map (the zero
   * question before any question has been posed); reading a nil map behaves as an
   * empty one, writing to it panics. Timestamps are whole seconds.
   */
  datatype Question = Question(
    xid: string,
    title: string,
    author: string,
    summary: string,
    first: string,
    last: string,
    kind: string,
    answers: seq<Answer>,
    guesses: Option<map<string, int>>,
    posed: int,
    guessed: int,
    results: int)

  /** Go's zero value of `Question`. */
  const ZeroQuestion: Question :=
    Question("", "", "", "", "", "", "", [], None, 0, 0, 0)

  /** True iff some answer in `answers` is authored by `id` (the loop of `HasSubmitted`). */
  function Authored(answers: seq<Answer>, id: string): (r: bool)
    ensures r <==> exists i :: 0 <= i < |answers| && answers[i].user == id
  {
    if answers == [] then false
    else if answers[0].user == id then true
    else
      var r := Authored(answers[1..], id);
      assert forall i :: 1 <= i < |answers| ==> answers[i] == answers[1..][i - 1];
      r
  }

  /** `Question.HasSubmitted`: has `id` already submitted an answer this round? */
  function HasSubmitted(q: Question, id: string): (r: bool)
    ensures r <==> exists i :: 0 <= i < |q.answers| && q.answers[i].user == id
  {
    Authored(q.answers, id)
  }

  /** The guesses as Go reads them: a nil map reads as empty. */
  function GuessMap(q: Question): map<string, int> {
    q.guesses.GetOr(map[])
  }

  /** `Question.HasAnswered`: has `id` already recorded a guess this round? */
  function HasAnswered(q: Question, id: string): (r: bool)
    ensures r <==> id in GuessMap(q)
    ensures q.guesses.None? ==> !r
  {
    q.guesses.Some? && id in q.guesses.value
  }

  /** Exchanges positions `i` and `j`. */
  function Swap<T>(s: seq<T>, i: nat, j: nat): (r: seq<T>)
    requires i < |s| && j < |s|
    ensures |r| == |s|
    ensures multiset(r) == multiset(s)
    ensures r[i] == s[j] && r[j] == s[i]
    ensures forall k :: 0 <= k < |s| && k != i && k != j ==> r[k] == s[k]
  {
    s[i := s[j]][j := s[i]]
  }

  /**
   * The Fisher-Yates pass of Go's `rand.Shuffle` over the first `n` positions: for
   * `i` from `n - 1` down to `1` it swaps position `i` with a position `j <= i`.
   * `draw(i)` is the random number drawn at step `i`, reduced into `0..i`.
   */
  function ShuffleDown<T>(s: seq<T>, n: nat, draw: nat -> nat): (r: seq<T>)
    requires n <= |s|
    ensures |r| == |s|
    ensures multiset(r) == multiset(s)
    ensures r[n..] == s[n..]
    decreases n
  {
    if n <= 1 then s
    else
      var i := n - 1;
      var t := Swap(s, i, draw(i) % (i + 1));
      var r := ShuffleDown(t, n - 1, draw);
      assert r[n..] == r[n - 1..][1..];
      assert t[n..] == s[n..];
      r
  }

  /** `rand.Shuffle` over the whole sequence: some permutation chosen by `draw`. */
  function Shuffle<T>(s: seq<T>, draw: nat -> nat): (r: seq<T>)
    ensures |r| == |s|
    ensures multiset(r) == multiset(s)
  {
    ShuffleDown(s, |s|, draw)
  }

  /** `Question.Shuffle`: permutes the answers and nothing else. */
  function ShuffleAnswers(q: Question, draw: nat -> nat): (r: Question)
    ensures multiset(r.answers) == multiset(q.answers)
    ensures |r.answers| == |q.answers|
    ensures r == q.(answers := r.answers)
  {
    q.(answers := Shuffle(q.answers, draw))
  }

  /**
   * `Question.Init`: gives the question the fresh identifier `xid`, decides from the
   * parity of the random number `coin` whether the first or the last line is the real
   * one, and appends the sentinel answer carrying that line.
   */
  function Init(q: Question, xid: string, coin: nat): (r: Question)
    ensures r.xid == xid
    ensures |r.answers| == |q.answers| + 1
    ensures r.answers[..|q.answers|] == q.answers
    ensures r.answers[|q.answers|].user == CorrectAnswer
    ensures r.kind == FirstLine <==> coin % 2 == 0
    ensures r.kind == FirstLine ==> r.answers[|q.answers|].text == q.first
    ensures r.kind != FirstLine ==> r.kind == LastLine && r.answers[|q.answers|].text == q.last
    ensures r == q.(xid := r.xid, kind := r.kind, answers := r.answers)
  {
    var kind := if coin % 2 == 0 then FirstLine else LastLine;
    var text := if coin % 2 == 0 then q.first else q.last;
    q.(xid := xid, kind := kind, answers := q.answers + [Answer(CorrectAnswer, text)])
  }

  /** After `Init` the sentinel author counts as having submitted, and nobody else's
      submission status changes. */
  lemma InitSeedsSentinel(q: Question, xid: string, coin: nat)
    ensures HasSubmitted(Init(q, xid, coin), CorrectAnswer)
    ensures forall id :: HasSubmitted(q, id) ==> HasSubmitted(Init(q, xid, coin), id)
    ensures forall id :: HasSubmitted(Init(q, xid, coin), id) <==> HasSubmitted(q, id) || id == CorrectAnswer
  {
    var r := Init(q, xid, coin);
    assert r.answers[|q.answers|].user == CorrectAnswer;
    forall id | HasSubmitted(q, id)
      ensures HasSubmitted(r, id)
    {
      var i :| 0 <= i < |q.answers| && q.answers[i].user == id;
      assert r.answers[i] == q.answers[i];
    }
    forall id | HasSubmitted(r, id) && id != CorrectAnswer
      ensures HasSubmitted(q, id)
    {
      var i :| 0 <= i < |r.answers| && r.answers[i].user == id;
      assert i < |q.answers| && r.answers[i] == q.answers[i];
    }
  }

  /** How many answers `user` has authored. */
  function CountBy(answers: seq<Answer>, user: string): (n: nat)
    ensures n <= |answers|
    ensures n > 0 <==> Authored(answers, user)
  {
    if answers == [] then 0
    else
      assert forall i :: 1 <= i < |answers| ==> answers[i] == answers[1..][i - 1];
      (if answers[0].user == user then 1 else 0) + CountBy(answers[1..], user)
  }

  lemma {:induction false} CountByAppend(a: seq<Answer>, b: seq<Answer>, user: string)
    ensures CountBy(a + b, user) == CountBy(a, user) + CountBy(b, user)
    decreases |a|
  {
    if a != [] {
      assert (a + b)[1..] == a[1..] + b;
      CountByAppend(a[1..], b, user);
    } else {
      assert a + b == b;
    }
  }

  /** Rearranging the answers does not change how many each author wrote. */
  lemma {:induction false} CountByPermutation(a: seq<Answer>, b: seq<Answer>, user: string)
    requires multiset(a) == multiset(b)
    ensures CountBy(a, user) == CountBy(b, user)
    decreases |a|
  {
    if a == [] {
      assert |b| == |multiset(b)| == 0;
    } else {
      var x := a[0];
      assert x in multiset(b);
      var k :| 0 <= k < |b| && b[k] == x;
      var rest := b[..k] + b[k + 1..];
      assert b == b[..k] + [x] + b[k + 1..];
      assert a == [x] + a[1..];
      assert multiset(b) == multiset(b[..k]) + multiset{x} + multiset(b[k + 1..]);
      assert multiset(rest) == multiset(b[..k]) + multiset(b[k + 1..]);
      assert multiset(a) == multiset{x} + multiset(a[1..]);
      assert multiset(a[1..]) == multiset(a) - multiset{x};
      assert multiset(rest) == multiset(b) - multiset{x};
      CountByPermutation(a[1..], rest, user);
      CountByAppend(b[..k], b[k + 1..], user);
      CountByAppend(b[..k] + [x], b[k + 1..], user);
      CountByAppend(b[..k], [x], user);
    }
  }
}

=== FILE: roster.dfy ===
/**
 * The players joined to one game and the lookups game.go performs on them:
 * `CheckPermission`, `PlayerByXid`, the duplicate-name test of `AddPlayer`, and the
 * `Score++` done through `PlayerByXid` when a point is awarded.
 */
module Roster {
  import opened Wrappers

  /** A player; `xid` doubles as the bearer token of every later request. */
  datatype Player = Player(xid: string, name: string, accessCode: string, score: nat)

  /** Go's zero value of `Player`, which `PlayerByXid` hands back for an unknown id. */
  const ZeroPlayer: Player := Player("", "", "", 0)

  /** The position of the first player whose id is `id`, if any. */
  function IndexOf(players: seq<Player>, id: string): (r: Option<nat>)
    ensures r.Some? ==> r.value < |players| && players[r.value].xid == id
    ensures r.Some? ==> forall j :: 0 <= j < r.value ==> players[j].xid != id
    ensures r.None? <==> forall j :: 0 <= j < |players| ==> players[j].xid != id
  {
    if players == [] then None
    else if players[0].xid == id then Some(0)
    else
      match IndexOf(players[1..], id)
      case None =>
        assert forall j :: 1 <= j < |players| ==> players[j] == players[1..][j - 1];
        None
      case Some(k) =>
        assert forall j :: 1 <= j < k + 1 ==> players[j] == players[1..][j - 1];
        Some(k + 1)
  }

  /** `Game.CheckPermission`: is `token` the id of a joined player? */
  function CheckPermission(players: seq<Player>, token: string): (r: bool)
    ensures r <==> exists i :: 0 <= i < |players| && players[i].xid == token
  {
    IndexOf(players, token).Some?
  }

  /** `Game.PlayerByXid`: the first player with id `id`, or the zero player. */
  function PlayerByXid(players: seq<Player>, id: string): (p: Player)
    ensures CheckPermission(players, id) ==> p.xid == id && p in players
    ensures CheckPermission(players, id) ==>
      exists i :: 0 <= i < |players| && players[i] == p && forall j :: 0 <= j < i ==> players[j].xid != id
    ensures !CheckPermission(players, id) ==> p == ZeroPlayer
  {
    match IndexOf(players, id)
    case Some(i) => players[i]
    case None => ZeroPlayer
  }

  /** The display name `PlayerByXid` yields; empty for an unknown id. */
  function NameOf(players: seq<Player>, id: string): string {
    PlayerByXid(players, id).name
  }

  /** Is `name` already used by a joined player? (the loop of `AddPlayer`) */
  function NameTaken(players: seq<Player>, name: string): (r: bool)
    ensures r <==> exists i :: 0 <= i < |players| && players[i].name == name
  {
    if players == [] then false
    else if players[0].name == name then true
    else
      var r := NameTaken(players[1..], name);
      assert forall i :: 1 <= i < |players| ==> players[i] == players[1..][i - 1];
      r
  }

  /** The two rosters differ at most in their scores. */
  ghost predicate SameIds(a: seq<Player>, b: seq<Player>) {
    |a| == |b| && forall i :: 0 <= i < |a| ==>
      a[i].xid == b[i].xid && a[i].name == b[i].name && a[i].accessCode == b[i].accessCode
  }

  /** Rosters with the same ids locate every id at the same position. */
  lemma {:induction false} IndexOfSameIds(a: seq<Player>, b: seq<Player>, id: string)
    requires SameIds(a, b)
    ensures IndexOf(a, id) == IndexOf(b, id)
    decreases |a|
  {
    if a != [] && a[0].xid != id {
      assert SameIds(a[1..], b[1..]) by {
        forall i | 0 <= i < |a[1..]|
          ensures a[1..][i].xid == b[1..][i].xid && a[1..][i].name == b[1..][i].name
          ensures a[1..][i].accessCode == b[1..][i].accessCode
        {
          assert a[1..][i] == a[i + 1] && b[1..][i] == b[i + 1];
        }
      }
      IndexOfSameIds(a[1..], b[1..], id);
    }
  }

  /** Rosters with the same ids and names give every id the same display name. */
  lemma NameOfSameIds(a: seq<Player>, b: seq<Player>, id: string)
    requires SameIds(a, b)
    ensures NameOf(a, id) == NameOf(b, id)
  {
    IndexOfSameIds(a, b, id);
  }

  /** `PlayerByXid(id).Score++`: one more point for the first player with id `id`; an
      unknown id increments the throwaway zero player, so the roster is unchanged. */
  function Award(players: seq<Player>, id: string): (r: seq<Player>)
    ensures SameIds(players, r)
    ensures forall i :: 0 <= i < |players| && IndexOf(players, id) != Some(i) ==> r[i] == players[i]
    ensures forall i :: 0 <= i < |players| && IndexOf(players, id) == Some(i) ==>
      r[i] == players[i].(score := players[i].score + 1)
    ensures !CheckPermission(players, id) ==> r == players
  {
    match IndexOf(players, id)
    case Some(i) => players[i := players[i].(score := players[i].score + 1)]
    case None => players
  }

  /** The sum of all scores. */
  function Total(players: seq<Player>): nat {
    if players == [] then 0 else players[0].score + Total(players[1..])
  }

  /** Raising one player's score by one raises the total by one. */
  lemma {:induction false} TotalBump(players: seq<Player>, i: nat)
    requires i < |players|
    ensures Total(players[i := players[i].(score := players[i].score + 1)]) == Total(players) + 1
    decreases |players|
  {
    var r := players[i := players[i].(score := players[i].score + 1)];
    if i > 0 {
      assert r[1..] == players[1..][i - 1 := players[i].(score := players[i].score + 1)];
      TotalBump(players[1..], i - 1);
    } else {
      assert r[1..] == players[1..];
    }
  }

  /** An award adds exactly one point overall when the id is on the roster, none otherwise. */
  lemma AwardTotal(players: seq<Player>, id: string)
    ensures Total(Award(players, id)) == Total(players) + (if CheckPermission(players, id) then 1 else 0)
  {
    match IndexOf(players, id)
    case Some(i) => TotalBump(players, i);
    case None =>
  }
}

=== FILE: scoring.dfy ===
/**
 * The scoring pass of `Game.CloseGuessSubmissions` (game.go): find the sentinel
 * answer, then walk the guesses in Go's map-iteration order, awarding each guess's
 * point and posting a chat callout for each self-guess. A wrong guess whose index
 * lies outside the answers makes Go panic on the slice index.
 */
module Scoring {
  import opened Wrappers
  import opened Constants
  import opened Questions
  import opened Roster
  import opened Chats

  /** The position of the LAST answer authored by the sentinel, or 0 when there is none
      (the loop overwrites `correct` at every match and starts from Go's zero value). */
  function CorrectIndex(answers: seq<Answer>): (r: nat)
    ensures Authored(answers, CorrectAnswer) ==>
      r < |answers| && answers[r].user == CorrectAnswer &&
      forall j :: r < j < |answers| ==> answers[j].user != CorrectAnswer
    ensures !Authored(answers, CorrectAnswer) ==> r == 0
    decreases |answers|
  {
    if answers == [] then 0
    else if answers[|answers| - 1].user == CorrectAnswer then |answers| - 1
    else
      var init := answers[..|answers| - 1];
      assert forall j :: 0 <= j < |init| ==> init[j] == answers[j];
      CorrectIndex(init)
  }

  /** What one guess earns: a point for someone, nothing (a self-guess), or a panic. */
  datatype Verdict = PointTo(id: string) | SelfGuess | OutOfRange

  /** The verdict on `uid` guessing index `guess`, with `correct` the sentinel's index. */
  function Judge(answers: seq<Answer>, correct: nat, uid: string, guess: int): (v: Verdict)
    ensures guess == correct ==> v == PointTo(uid)
    ensures v.OutOfRange? <==> guess != correct && !(0 <= guess < |answers|)
    ensures v.SelfGuess? <==> guess != correct && 0 <= guess < |answers| && answers[guess].user == uid
    ensures v.PointTo? && guess != correct ==> 0 <= guess < |answers| && v.id == answers[guess].user && v.id != uid
  {
    if guess == correct then PointTo(uid)
    else if !(0 <= guess < |answers|) then OutOfRange
    else if uid == answers[guess].user then SelfGuess
    else PointTo(answers[guess].user)
  }

  /** The chat line a self-guess provokes. */
  function Callout(name: string): (r: string)
    ensures |r| == |name| + 47
    ensures r[..9] == "Come on, " && r[9..9 + |name|] == name
  {
    "Come on, " + name + ", don't guess your own answer. Lame-o."
  }

  /** The chat message a self-guess by `uid` provokes, posted under the admin name. */
  function CalloutFrom(players: seq<Player>, uid: string): Message {
    Message(Callout(NameOf(players, uid)), AdminName)
  }

  /** The callouts the self-guesses listed in `order` provoke, in that order. */
  function Callouts(players: seq<Player>, answers: seq<Answer>, correct: nat,
                    guesses: map<string, int>, order: seq<string>): seq<Message>
    requires forall u :: u in order ==> u in guesses
  {
    if order == [] then []
    else
      (if Judge(answers, correct, order[0], guesses[order[0]]).SelfGuess?
       then [CalloutFrom(players, order[0])] else [])
      + Callouts(players, answers, correct, guesses, order[1..])
  }

  /** The guessers among `keys` who picked their own answer. */
  ghost function SelfGuessers(answers: seq<Answer>, correct: nat, guesses: map<string, int>,
                              keys: set<string>): set<string>
    requires keys <= guesses.Keys
  {
    set u | u in keys && Judge(answers, correct, u, guesses[u]).SelfGuess?
  }

  /** The roster and chat after scoring, or the panic that cut the pass short. */
  datatype Tally = Tally(players: seq<Player>, chat: Chat) | Panicked

  /** Points the guesses listed in `order` give to id `x`. */
  function PointsFor(answers: seq<Answer>, correct: nat, guesses: map<string, int>,
                     order: seq<string>, x: string): nat
    requires forall u :: u in order ==> u in guesses
  {
    if order == [] then 0
    else
      (if Judge(answers, correct, order[0], guesses[order[0]]) == PointTo(x) then 1 else 0)
      + PointsFor(answers, correct, guesses, order[1..], x)
  }

  /** Does some guess among `keys` index outside the answers? */
  ghost predicate AnyOutOfRange(answers: seq<Answer>, correct: nat, guesses: map<string, int>,
                                keys: set<string>)
    requires keys <= guesses.Keys
  {
    exists u :: u in keys && Judge(answers, correct, u, guesses[u]).OutOfRange?
  }

  /** The new score of position `i`: every point addressed to its id, when it is the first
      position holding that id (the one `PlayerByXid` finds). */
  function Earned(players: seq<Player>, i: nat, answers: seq<Answer>, correct: nat,
                  guesses: map<string, int>, order: seq<string>): nat
    requires i < |players|
    requires forall u :: u in order ==> u in guesses
  {
    players[i].score +
      (if IndexOf(players, players[i].xid) == Some(i)
       then PointsFor(answers, correct, guesses, order, players[i].xid) else 0)
  }

  /** `c'` holds the messages of `c` followed by zero or more new ones, cursors untouched. */
  ghost predicate LogGrows(c: Chat, c': Chat) {
    c'.cursors == c.cursors && |c.messages| <= |c'.messages| && c'.messages[..|c.messages|] == c.messages
  }

  /**
   * The scoring loop over the guesses in the iteration order `order`: it panics iff some
   * listed guess indexes outside the answers; otherwise ids and names stay as they were
   * and the chat gains exactly one admin callout per self-guess, in the order scored.
   */
  function ScoreInOrder(players: seq<Player>, chat: Chat, answers: seq<Answer>, correct: nat,
                        guesses: map<string, int>, order: seq<string>): (t: Tally)
    requires forall u :: u in order ==> u in guesses
    ensures t.Panicked? <==> exists u :: u in order && Judge(answers, correct, u, guesses[u]).OutOfRange?
    ensures t.Tally? ==> SameIds(players, t.players)
    ensures t.Tally? ==> LogGrows(chat, t.chat)
    decreases |order|
  {
    if order == [] then Tally(players, chat)
    else
      var uid := order[0];
      assert forall u :: u in order[1..] ==> u in order;
      match Judge(answers, correct, uid, guesses[uid])
      case OutOfRange => Panicked
      case SelfGuess =>
        var chat' := AddMessage(chat, AdminName, Callout(NameOf(players, uid)));
        var t := ScoreInOrder(players, chat', answers, correct, guesses, order[1..]);
        if t.Panicked? then t
        else
          assert t.chat.messages[..|chat.messages|] == t.chat.messages[..|chat'.messages|][..|chat.messages|];
          t
      case PointTo(to) =>
        ScoreInOrder(Award(players, to), chat, answers, correct, guesses, order[1..])
  }

  /** The chat after scoring is the old log followed by exactly the callouts of the
      self-guesses, in the order they were scored; no cursor moves. */
  lemma {:induction false} ScoreInOrderChat(players: seq<Player>, chat: Chat, answers: seq<Answer>,
      correct: nat, guesses: map<string, int>, order: seq<string>)
    requires forall u :: u in order ==> u in guesses
    ensures var t := ScoreInOrder(players, chat, answers, correct, guesses, order);
      t.Tally? ==> t.chat == Chat(chat.cursors, chat.messages + Callouts(players, answers, correct, guesses, order))
    decreases |order|
  {
    if order != [] {
      var uid := order[0];
      var rest := order[1..];
      assert forall u :: u in rest ==> u in order;
      match Judge(answers, correct, uid, guesses[uid])
      case OutOfRange =>
      case SelfGuess =>
        var chat' := AddMessage(chat, AdminName, Callout(NameOf(players, uid)));
        var m := CalloutFrom(players, uid);
        var cr := Callouts(players, answers, correct, guesses, rest);
        assert ScoreInOrder(players, chat, answers, correct, guesses, order)
          == ScoreInOrder(players, chat', answers, correct, guesses, rest);
        ScoreInOrderChat(players, chat', answers, correct, guesses, rest);
        assert chat' == Chat(chat.cursors, chat.messages + [m]);
        assert Callouts(players, answers, correct, guesses, order) == [m] + cr;
        assert (chat.messages + [m]) + cr == chat.messages + ([m] + cr);
      case PointTo(to) =>
        var players' := Award(players, to);
        assert ScoreInOrder(players, chat, answers, correct, guesses, order)
          == ScoreInOrder(players', chat, answers, correct, guesses, rest);
        assert Callouts(players, answers, correct, guesses, order)
          == Callouts(players, answers, correct, guesses, rest);
        ScoreInOrderChat(players', chat, answers, correct, guesses, rest);
        CalloutsSameIds(players', players, answers, correct, guesses, rest);
    }
  }

  /** Callouts depend on the roster only through its ids and names. */
  lemma {:induction false} CalloutsSameIds(a: seq<Player>, b: seq<Player>, answers: seq<Answer>,
      correct: nat, guesses: map<string, int>, order: seq<string>)
    requires SameIds(a, b)
    requires forall u :: u in order ==> u in guesses
    ensures Callouts(a, answers, correct, guesses, order) == Callouts(b, answers, correct, guesses, order)
    decreases |order|
  {
    if order != [] {
      assert forall u :: u in order[1..] ==> u in order;
      NameOfSameIds(a, b, order[0]);
      CalloutsSameIds(a, b, answers, correct, guesses, order[1..]);
    }
  }

  /** The closed form of the scoring loop at position `i`: the player there ends with its
      old score plus the points addressed to it, counted only at the first position
      holding its id. */
  lemma {:induction false} ScoreAt(players: seq<Player>, chat: Chat, answers: seq<Answer>,
      correct: nat, guesses: map<string, int>, order: seq<string>, i: nat)
    requires forall u :: u in order ==> u in guesses
    requires i < |players|
    ensures var t := ScoreInOrder(players, chat, answers, correct, guesses, order);
      t.Tally? ==> t.players[i].score == Earned(players, i, answers, correct, guesses, order)
    decreases |order|
  {
    if order != [] {
      var uid := order[0];
      var rest := order[1..];
      assert forall u :: u in rest ==> u in order;
      var x := players[i].xid;
      var v := Judge(answers, correct, uid, guesses[uid]);
      assert PointsFor(answers, correct, guesses, order, x)
        == (if v == PointTo(x) then 1 else 0) + PointsFor(answers, correct, guesses, rest, x);
      match v
      case OutOfRange =>
      case SelfGuess =>
        var chat' := AddMessage(chat, AdminName, Callout(NameOf(players, uid)));
        ScoreAt(players, chat', answers, correct, guesses, rest, i);
      case PointTo(to) =>
        var players' := Award(players, to);
        assert ScoreInOrder(players, chat, answers, correct, guesses, order)
          == ScoreInOrder(players', chat, answers, correct, guesses, rest);
        ScoreAt(players', chat, answers, correct, guesses, rest, i);
        IndexOfSameIds(players', players, x);
        assert players'[i].xid == x;
        if IndexOf(players, to) == Some(i) {
          assert to == x;
        }
    }
  }

  /** The closed form of the scoring loop at every position. */
  lemma ScoreInOrderClosedForm(players: seq<Player>, chat: Chat,
      answers: seq<Answer>, correct: nat, guesses: map<string, int>, order: seq<string>)
    requires forall u :: u in order ==> u in guesses
    ensures var t := ScoreInOrder(players, chat, answers, correct, guesses, order);
      t.Tally? ==> forall i :: 0 <= i < |players| ==>
        t.players[i].score == Earned(players, i, answers, correct, guesses, order)
  {
    forall i | 0 <= i < |players| {
      ScoreAt(players, chat, answers, correct, guesses, order, i);
    }
  }

  /** `order` lists each element of `keys` exactly once. */
  ghost predicate Enumerates(order: seq<string>, keys: set<string>) {
    && (forall i, j :: 0 <= i < j < |order| ==> order[i] != order[j])
    && (forall u :: u in order <==> u in keys)
  }

  /** Some enumeration of a finite set: Go leaves map iteration order unspecified, and so
      does this choice. */
  ghost function Enumerate(keys: set<string>): (order: seq<string>)
    ensures Enumerates(order, keys)
    decreases keys
  {
    if keys == {} then []
    else
      var u :| u in keys;
      var rest := Enumerate(keys - {u});
      assert forall i :: 0 <= i < |rest| ==> rest[i] in keys - {u};
      [u] + rest
  }

  /** Dropping the first element of an enumeration enumerates the rest of the set. */
  lemma EnumeratesTail(order: seq<string>, keys: set<string>)
    requires Enumerates(order, keys)
    requires order != []
    ensures order[0] in keys
    ensures Enumerates(order[1..], keys - {order[0]})
  {
    var u := order[0];
    var rest := keys - {u};
    forall v ensures v in order[1..] <==> v in rest {
      if v in order[1..] {
        var k :| 0 <= k < |order[1..]| && order[1..][k] == v;
        assert order[k + 1] == v && order[0] == u;
      }
      if v in order && v != u {
        var k :| 0 <= k < |order| && order[k] == v;
        assert k != 0;
        assert order[1..][k - 1] == v;
      }
    }
    forall i, j | 0 <= i < j < |order[1..]| ensures order[1..][i] != order[1..][j] {
      assert order[1..][i] == order[i + 1] && order[1..][j] == order[j + 1];
    }
  }

  /** Does `m` call out some guesser in `order` who picked their own answer? */
  ghost predicate CallsOutSelfGuesser(players: seq<Player>, answers: seq<Answer>, correct: nat,
                                      guesses: map<string, int>, order: seq<string>, m: Message)
    requires forall u :: u in order ==> u in guesses
  {
    exists u :: u in order && Judge(answers, correct, u, guesses[u]).SelfGuess? && m == CalloutFrom(players, u)
  }

  /** Every callout names a guesser in `order` who picked their own answer. */
  lemma {:induction false} CalloutsNameSelfGuessers(players: seq<Player>, answers: seq<Answer>,
      correct: nat, guesses: map<string, int>, order: seq<string>)
    requires forall u :: u in order ==> u in guesses
    ensures forall k :: 0 <= k < |Callouts(players, answers, correct, guesses, order)| ==>
      CallsOutSelfGuesser(players, answers, correct, guesses, order, Callouts(players, answers, correct, guesses, order)[k])
    decreases |order|
  {
    if order != [] {
      var u := order[0];
      var rest := order[1..];
      assert forall v :: v in rest ==> v in order;
      CalloutsNameSelfGuessers(players, answers, correct, guesses, rest);
      var c := Callouts(players, answers, correct, guesses, order);
      var ct := Callouts(players, answers, correct, guesses, rest);
      var self := Judge(answers, correct, u, guesses[u]).SelfGuess?;
      var d := if self then 1 else 0;
      assert c == (if self then [CalloutFrom(players, u)] else []) + ct;
      forall k | 0 <= k < |c|
        ensures CallsOutSelfGuesser(players, answers, correct, guesses, order, c[k])
      {
        if self && k == 0 {
          assert c[0] == CalloutFrom(players, u);
        } else {
          var j := k - d;
          assert 0 <= j < |ct| && c[k] == ct[j];
          assert CallsOutSelfGuesser(players, answers, correct, guesses, rest, ct[j]);
          var w :| w in rest && Judge(answers, correct, w, guesses[w]).SelfGuess? && ct[j] == CalloutFrom(players, w);
          assert w in order;
        }
      }
    }
  }

  /** Every guesser in `order` who picked their own answer is called out. */
  lemma {:induction false} SelfGuessersCalledOut(players: seq<Player>, answers: seq<Answer>,
      correct: nat, guesses: map<string, int>, order: seq<string>)
    requires forall u :: u in order ==> u in guesses
    ensures forall u :: u in order && Judge(answers, correct, u, guesses[u]).SelfGuess? ==>
      CalloutFrom(players, u) in Callouts(players, answers, correct, guesses, order)
    decreases |order|
  {
    if order != [] {
      var rest := order[1..];
      assert forall v :: v in rest ==> v in order;
      SelfGuessersCalledOut(players, answers, correct, guesses, rest);
      forall u | u in order && Judge(answers, correct, u, guesses[u]).SelfGuess?
        ensures CalloutFrom(players, u) in Callouts(players, answers, correct, guesses, order)
      {
        if u != order[0] {
          assert u in rest;
        }
      }
    }
  }

  /** Over an enumeration there are exactly as many callouts as self-guessers. */
  lemma {:induction false} CalloutCount(players: seq<Player>, answers: seq<Answer>,
      correct: nat, guesses: map<string, int>, order: seq<string>, keys: set<string>)
    requires Enumerates(order, keys)
    requires keys <= guesses.Keys
    ensures |Callouts(players, answers, correct, guesses, order)| == |SelfGuessers(answers, correct, guesses, keys)|
    decreases |order|
  {
    if order == [] {
      assert keys == {};
    } else {
      var u := order[0];
      var rest := keys - {u};
      EnumeratesTail(order, keys);
      CalloutCount(players, answers, correct, guesses, order[1..], rest);
      var all := SelfGuessers(answers, correct, guesses, keys);
      var tail := SelfGuessers(answers, correct, guesses, rest);
      if Judge(answers, correct, u, guesses[u]).SelfGuess? {
        assert all == tail + {u};
        assert u !in tail;
      } else {
        assert all == tail;
      }
    }
  }

  /** The guesses among `keys` that give their point to `x`. */
  ghost function Beneficiaries(answers: seq<Answer>, correct: nat, guesses: map<string, int>,
                               keys: set<string>, x: string): set<string>
    requires keys <= guesses.Keys
  {
    set u | u in keys && Judge(answers, correct, u, guesses[u]) == PointTo(x)
  }

  /** Over an enumeration, the points addressed to `x` are the number of guesses giving
      `x` their point, whatever the order. */
  lemma {:induction false} PointsForEnumeration(answers: seq<Answer>, correct: nat,
      guesses: map<string, int>, order: seq<string>, keys: set<string>, x: string)
    requires Enumerates(order, keys)
    requires keys <= guesses.Keys
    ensures PointsFor(answers, correct, guesses, order, x)
      == |Beneficiaries(answers, correct, guesses, keys, x)|
    decreases |order|
  {
    if order == [] {
      assert keys == {};
    } else {
      var u := order[0];
      var rest := keys - {u};
      EnumeratesTail(order, keys);
      PointsForEnumeration(answers, correct, guesses, order[1..], rest, x);
      var all := Beneficiaries(answers, correct, guesses, keys, x);
      var tail := Beneficiaries(answers, correct, guesses, rest, x);
      if Judge(answers, correct, u, guesses[u]) == PointTo(x) {
        assert all == tail + {u};
        assert u !in tail;
      } else {
        assert all == tail;
      }
    }
  }

  /** Two iteration orders of the same guesses agree on whether the pass panics and on
      every resulting score: scoring does not depend on map iteration order. */
  lemma ScoringOrderIndependent(players: seq<Player>, chat: Chat, answers: seq<Answer>,
      correct: nat, guesses: map<string, int>, o1: seq<string>, o2: seq<string>)
    requires Enumerates(o1, guesses.Keys) && Enumerates(o2, guesses.Keys)
    ensures ScoreInOrder(players, chat, answers, correct, guesses, o1).Panicked?
        <==> ScoreInOrder(players, chat, answers, correct, guesses, o2).Panicked?
    ensures var t1 := ScoreInOrder(players, chat, answers, correct, guesses, o1);
            var t2 := ScoreInOrder(players, chat, answers, correct, guesses, o2);
            t1.Tally? ==> t1.players == t2.players
  {
    var t1 := ScoreInOrder(players, chat, answers, correct, guesses, o1);
    var t2 := ScoreInOrder(players, chat, answers, correct, guesses, o2);
    if t1.Tally? {
      assert t2.Tally?;
      ScoreInOrderClosedForm(players, chat, answers, correct, guesses, o1);
      ScoreInOrderClosedForm(players, chat, answers, correct, guesses, o2);
      forall i | 0 <= i < |players|
        ensures t1.players[i] == t2.players[i]
      {
        var x := players[i].xid;
        PointsForEnumeration(answers, correct, guesses, o1, guesses.Keys, x);
        PointsForEnumeration(answers, correct, guesses, o2, guesses.Keys, x);
        assert Earned(players, i, answers, correct, guesses, o1)
          == Earned(players, i, answers, correct, guesses, o2);
      }
      assert |t1.players| == |t2.players|;
    }
  }

  /** Scores never go down, and the whole pass hands out at most one point per guess. */
  lemma {:induction false} AtMostOnePointPerGuess(players: seq<Player>, chat: Chat,
      answers: seq<Answer>, correct: nat, guesses: map<string, int>, order: seq<string>)
    requires forall u :: u in order ==> u in guesses
    ensures var t := ScoreInOrder(players, chat, answers, correct, guesses, order);
      t.Tally? ==> Total(t.players) <= Total(players) + |order| &&
                   forall i :: 0 <= i < |players| ==> t.players[i].score >= players[i].score
    decreases |order|
  {
    if order != [] {
      var uid := order[0];
      assert forall u :: u in order[1..] ==> u in order;
      match Judge(answers, correct, uid, guesses[uid])
      case OutOfRange =>
      case SelfGuess =>
        var chat' := AddMessage(chat, AdminName, Callout(NameOf(players, uid)));
        AtMostOnePointPerGuess(players, chat', answers, correct, guesses, order[1..]);
      case PointTo(to) =>
        var players' := Award(players, to);
        AwardTotal(players, to);
        AtMostOnePointPerGuess(players', chat, answers, correct, guesses, order[1..]);
    }
  }

  /** The scoring pass over the guesses in Go's (unspecified) map order: it panics iff a
      guess is out of range, and otherwise each player's new score is its old one plus,
      at the first position with its id, the number of guesses giving that id a point. */
  ghost function ScoreRound(players: seq<Player>, chat: Chat, answers: seq<Answer>, correct: nat,
                            guesses: map<string, int>): (t: Tally)
    ensures t.Panicked? <==> AnyOutOfRange(answers, correct, guesses, guesses.Keys)
    ensures t.Tally? ==> SameIds(players, t.players) && LogGrows(chat, t.chat)
    ensures t.Tally? ==> forall i :: 0 <= i < |players| ==>
      t.players[i].score == players[i].score +
        (if IndexOf(players, players[i].xid) == Some(i)
         then |Beneficiaries(answers, correct, guesses, guesses.Keys, players[i].xid)|
         else 0)
  {
    var order := Enumerate(guesses.Keys);
    ScoreInOrderClosedForm(players, chat, answers, correct, guesses, order);
    forall i | 0 <= i < |players|
      ensures PointsFor(answers, correct, guesses, order, players[i].xid)
        == |Beneficiaries(answers, correct, guesses, guesses.Keys, players[i].xid)|
    {
      PointsForEnumeration(answers, correct, guesses, order, guesses.Keys, players[i].xid);
    }
    ScoreInOrder(players, chat, answers, correct, guesses, order)
  }

  /** The chat after a round's scoring: the old log and cursors, then one admin callout
      per self-guesser, naming that guesser; as many callouts as self-guessers, whatever
      the map order. */
  lemma ScoreRoundCallouts(players: seq<Player>, chat: Chat, answers: seq<Answer>, correct: nat,
                           guesses: map<string, int>)
    ensures var t := ScoreRound(players, chat, answers, correct, guesses);
      t.Tally? ==> t.chat.cursors == chat.cursors && t.chat.messages[..|chat.messages|] == chat.messages
    ensures var t := ScoreRound(players, chat, answers, correct, guesses);
      t.Tally? ==> |t.chat.messages| == |chat.messages| + |SelfGuessers(answers, correct, guesses, guesses.Keys)|
    ensures var t := ScoreRound(players, chat, answers, correct, guesses);
      t.Tally? ==> forall k :: |chat.messages| <= k < |t.chat.messages| ==>
        exists u :: u in SelfGuessers(answers, correct, guesses, guesses.Keys) && t.chat.messages[k] == CalloutFrom(players, u)
    ensures var t := ScoreRound(players, chat, answers, correct, guesses);
      t.Tally? ==> forall u :: u in SelfGuessers(answers, correct, guesses, guesses.Keys) ==>
        CalloutFrom(players, u) in t.chat.messages[|chat.messages|..]
  {
    var order := Enumerate(guesses.Keys);
    var t := ScoreRound(players, chat, answers, correct, guesses);
    assert t == ScoreInOrder(players, chat, answers, correct, guesses, order);
    if t.Tally? {
      var c := Callouts(players, answers, correct, guesses, order);
      ScoreInOrderChat(players, chat, answers, correct, guesses, order);
      assert t.chat.messages[|chat.messages|..] == c;
      CalloutCount(players, answers, correct, guesses, order, guesses.Keys);
      CalloutsNameSelfGuessers(players, answers, correct, guesses, order);
      SelfGuessersCalledOut(players, answers, correct, guesses, order);
      var selfs := SelfGuessers(answers, correct, guesses, guesses.Keys);
      forall k | |chat.messages| <= k < |t.chat.messages|
        ensures exists u :: u in selfs && t.chat.messages[k] == CalloutFrom(players, u)
      {
        var j := k - |chat.messages|;
        assert t.chat.messages[k] == c[j];
        assert CallsOutSelfGuesser(players, answers, correct, guesses, order, c[j]);
        var w :| w in order && Judge(answers, correct, w, guesses[w]).SelfGuess? && c[j] == CalloutFrom(players, w);
        assert w in selfs;
      }
    }
  }
}

=== FILE: sessions.dfy ===
/**
 * The session loop of `PlayGame` (playgame.go): one request at a time, the game is
 * changed by the operation the request names and one response goes back. A `Step` is
 * a pure function of the game, the request and the environment of that moment (the
 * clock, a fresh player id, the question file's contents and the random source).
 * Timeouts the loop would arm are ordinary requests here, arriving whenever they do.
 */
module Session {
  import opened Wrappers
  import opened Constants
  import opened Questions
  import opened Chats
  import opened Roster
  import opened Standings
  import opened Games
  import opened Tags

  /** What a client sends: who it is, what it wants, and a free-text payload. */
  datatype Request = Request(token: string, kind: string, payload: string)

  /** What the world supplies to one step. */
  datatype Env = Env(now: int, newId: string, pool: Option<seq<Question>>, draw: nat -> nat)

  /** `PlayerResp`: `Empty` is the zero response of `end`; every other response is a
      snapshot of timer, scores, screen, phase tag, payload and newly delivered chat. */
  datatype Response =
    | Empty
    | Snapshot(timer: Option<nat>, scores: seq<ScoreLine>, view: View, tag: State,
               payload: string, chat: seq<Message>)

  /** Whether the loop goes on with a new game, returns after answering, or panics. */
  datatype Outcome =
    | Continue(game: Game, response: Response)
    | Stop(response: Response)
    | Crashed(reason: CrashReason)

  /** The response prepared before the switch: only the phase tag of the game as it was. */
  function Default(g: Game): (r: Response)
    ensures r.Snapshot? && r.tag == g.state
    ensures r.timer.None? && r.scores == [] && r.view == Blank && r.payload == "" && r.chat == []
  {
    Snapshot(None, [], Blank, g.state, "", [])
  }

  /** The acknowledgement of an action: timer and scores of the new game, a short text,
      and the `temp` tag that tells the client to poll. */
  function Ack(g: Game, message: string, payload: string, now: int): (r: Response)
    ensures r.Snapshot? && r.tag == Temp && r.view == Text(message) && r.payload == payload
    ensures r.timer == GetTimer(g, now) && |r.scores| == |g.players| && r.chat == []
  {
    Snapshot(GetTimer(g, now), GetScores(g.players), Text(message), Temp, payload, [])
  }

  /** The full screen for `token`, which also delivers (and consumes) its unread chat. */
  function Full(g: Game, token: string, now: int): (r: (Game, Response))
    ensures r.0 == g.(chat := GetMessages(g.chat, token).0)
    ensures r.1.Snapshot? && r.1.tag == g.state && r.1.chat == GetMessages(g.chat, token).1
    ensures r.1.view == ShowGame(g, token) && r.1.timer == GetTimer(g, now)
  {
    var (chat, unread) := GetMessages(g.chat, token);
    (g.(chat := chat), Snapshot(GetTimer(g, now), GetScores(g.players), ShowGame(g, token), g.state, "", unread))
  }

  /** Tags are stripped from every non-empty payload before dispatch. */
  function Clean(payload: string): (r: string)
    ensures TagFree(r)
    ensures IsSubsequence(r, payload)
  {
    StripTagsIsTagFree(payload);
    StripTagsIsSubsequence(payload);
    if payload != "" then StripTags(payload) else payload
  }

  /** `chat`: a player's message joins the log under its name, then the full screen. */
  function OnChat(g: Game, token: string, body: string, now: int): (o: Outcome)
    ensures !CheckPermission(g.players, token) ==> o == Continue(g, Default(g))
    ensures CheckPermission(g.players, token) ==>
      && o.Continue?
      && o.game.chat.messages == g.chat.messages + [Message(body, PlayerByXid(g.players, token).name)]
      && o.game == g.(chat := o.game.chat)
      && o.response.Snapshot? && o.response.view == ShowGame(g.(chat := o.game.chat), token)
    ensures CheckPermission(g.players, token) && Valid(g.chat) && token != "" ==>
      && o.Continue? && o.response.Snapshot?
      && o.response.chat == o.game.chat.messages[Cursor(g.chat, token)..]
      && o.response.chat[|o.response.chat| - 1] == Message(body, PlayerByXid(g.players, token).name)
  {
    if CheckPermission(g.players, token) then
      var g1 := g.(chat := AddMessage(g.chat, NameOf(g.players, token), body));
      var (g2, resp) := Full(g1, token, now);
      Continue(g2, resp)
    else Continue(g, Default(g))
  }

  /** `poll`: the full screen for a known player. */
  function OnPoll(g: Game, token: string, now: int): (o: Outcome)
    ensures !CheckPermission(g.players, token) ==> o == Continue(g, Default(g))
    ensures CheckPermission(g.players, token) ==>
      && o.Continue?
      && o.game == g.(chat := GetMessages(g.chat, token).0)
      && o.response.Snapshot?
      && o.response.view == ShowGame(g, token)
      && o.response.chat == GetMessages(g.chat, token).1
  {
    if CheckPermission(g.players, token) then
      var (g1, resp) := Full(g, token, now);
      Continue(g1, resp)
    else Continue(g, Default(g))
  }

  /** `join`: a new player named by the payload; the response hands back its id. */
  function OnJoin(g: Game, name: string, newId: string, now: int): (o: Outcome)
    ensures o.Continue?
    ensures NameTaken(g.players, name) ==> o == Continue(g, Default(g))
    ensures !NameTaken(g.players, name) ==>
      && o.game == g.(players := g.players + [Player(newId, name, g.accessCode, 0)])
      && o.response.Snapshot? && o.response.payload == newId && o.response.tag == Temp
  {
    match AddPlayer(g, name, newId)
    case Failure(_) => Continue(g, Default(g))
    case Success((g1, p)) =>
      Continue(g1, Snapshot(GetTimer(g1, now), GetScores(g1.players), Text("Joining game..."), Temp, p.xid, []))
  }

  /** `start`: only from `setup`; loads and plays the first question, then greets. */
  function OnStart(g: Game, env: Env): (o: Outcome)
    ensures o.Continue?
    ensures g.state != Setup ==> o == Continue(g, Default(g))
    ensures g.state == Setup && env.pool.None? ==>
      o.game == g.(chat := AddMessage(g.chat, AdminName, "Let's play!"))
    ensures g.state == Setup && env.pool.Some? ==>
      o.game.state == (if env.pool.value == [] then Final else Pose)
    ensures g.state == Setup ==> o.response == Ack(o.game, "OK! Let's go!", "", env.now)
    ensures o.game.players == g.players && o.game.xid == g.xid && o.game.accessCode == g.accessCode
  {
    if g.state == Setup then
      var g1 := Games.Start(g, env.pool, env.draw, env.now);
      var g2 := g1.(chat := AddMessage(g1.chat, AdminName, "Let's play!"));
      Continue(g2, Ack(g2, "OK! Let's go!", "", env.now))
    else Continue(g, Default(g))
  }

  /** `submit`: only while the question is posed. */
  function OnSubmit(g: Game, token: string, payload: string, env: Env): (o: Outcome)
    ensures o.Continue?
    ensures g.state != Pose ==> o == Continue(g, Default(g))
    ensures g.state == Pose ==> o.game == Games.Submit(g, token, payload, env.draw, env.now)
    ensures g.state == Pose ==> o.response == Ack(o.game, "Got it!", "", env.now)
    ensures g.state == Pose ==> o.game.state == Pose || o.game.state == OfferAnswers
    ensures o.game.players == g.players && o.game.xid == g.xid && o.game.accessCode == g.accessCode
  {
    if g.state == Pose then
      var g1 := Games.Submit(g, token, payload, env.draw, env.now);
      Continue(g1, Ack(g1, "Got it!", "", env.now))
    else Continue(g, Default(g))
  }

  /** `answer`: no phase check; the guess goes straight to `Game.Answer`. */
  ghost function OnGuess(g: Game, token: string, payload: string, now: int): (o: Outcome)
    ensures o.Crashed? <==> RecordGuess(g, token, payload, now).Crash?
    ensures o.Crashed? ==> o.reason == RecordGuess(g, token, payload, now).reason
    ensures o.Continue? ==> o.game == RecordGuess(g, token, payload, now).game
    ensures o.Continue? ==> o.response == Ack(o.game, "Got it!", "", now)
    ensures !o.Stop?
  {
    match RecordGuess(g, token, payload, now)
    case Crash(reason) => Crashed(reason)
    case Done(g1) => Continue(g1, Ack(g1, "Got it!", "", now))
  }

  /** `next`: only from `show`; announces what is left and plays the next question. */
  function OnNext(g: Game, now: int): (o: Outcome)
    ensures o.Continue?
    ensures g.state != ShowResults ==> o == Continue(g, Default(g))
    ensures g.state == ShowResults ==> o.game.state == (if g.questions == [] then Final else Pose)
    ensures g.state == ShowResults ==> o.response.Snapshot? && o.response.tag == Temp
    ensures g.state == ShowResults ==>
      o.response.view == Text(if g.questions == [] then "All done!" else "Getting next question!")
    ensures g.state == ShowResults && g.current.xid != "" ==> o.game.done == g.done + [g.current]
    ensures o.game.players == g.players && o.game.xid == g.xid && o.game.accessCode == g.accessCode
  {
    if g.state == ShowResults then
      var g1 := g.(chat := AddMessage(g.chat, AdminName, BooksLeft(|g.questions|)));
      var g2 := PlayQuestion(g1, now);
      Continue(g2, Ack(g2, if g2.state == Pose then "Getting next question!" else "All done!", "", now))
    else Continue(g, Default(g))
  }

  /** `questiontimeout`: acts only while the question it was armed for is still posed. */
  function OnQuestionTimeout(g: Game, xid: string, env: Env): (o: Outcome)
    ensures o.Continue? && o.response == Default(g)
    ensures !(g.state == Pose && g.current.xid == xid) ==> o.game == g
    ensures g.state == Pose && g.current.xid == xid ==>
      var closed := CloseQuestionSubmissions(g, env.draw, env.now);
      o.game == closed.(chat := AddMessage(closed.chat, AdminName, "Time's up! Let's see what you came up with."))
    ensures g.state == Pose && g.current.xid == xid ==> o.game.state == OfferAnswers
    ensures o.game.players == g.players && o.game.xid == g.xid && o.game.accessCode == g.accessCode
  {
    if g.state == Pose && g.current.xid == xid then
      var g1 := CloseQuestionSubmissions(g, env.draw, env.now);
      Continue(g1.(chat := AddMessage(g1.chat, AdminName, "Time's up! Let's see what you came up with.")), Default(g))
    else Continue(g, Default(g))
  }

  /** `answertimeout`: acts only while the question it was armed for is still offered. */
  ghost function OnAnswerTimeout(g: Game, xid: string, now: int): (o: Outcome)
    ensures !o.Stop?
    ensures !(g.state == OfferAnswers && g.current.xid == xid) ==> o == Continue(g, Default(g))
    ensures g.state == OfferAnswers && g.current.xid == xid ==>
      (o.Crashed? <==> CloseGuessSubmissions(g, now).Crash?)
    ensures o.Continue? && g.state == OfferAnswers && g.current.xid == xid ==>
      var closed := CloseGuessSubmissions(g, now).game;
      && o.game == closed.(chat := AddMessage(closed.chat, AdminName, "Time's up! Let's see what the answers were."))
      && o.game.state == ShowResults
    ensures o.Continue? ==> o.response == Default(g)
  {
    if g.state == OfferAnswers && g.current.xid == xid then
      match CloseGuessSubmissions(g, now)
      case Crash(reason) => Crashed(reason)
      case Done(g1) =>
        Continue(g1.(chat := AddMessage(g1.chat, AdminName, "Time's up! Let's see what the answers were.")), Default(g))
    else Continue(g, Default(g))
  }

  /** The operation a request kind selects, applied to the cleaned payload. */
  ghost function Dispatch(g: Game, kind: RequestKind, token: string, payload: string, env: Env): (o: Outcome)
    ensures o.Continue? ==> o.response.Snapshot?
  {
    match kind
    case ChatKind => OnChat(g, token, payload, env.now)
    case Join => OnJoin(g, payload, env.newId, env.now)
    case Poll => OnPoll(g, token, env.now)
    case Start => OnStart(g, env)
    case Submit => OnSubmit(g, token, payload, env)
    case Guess => OnGuess(g, token, payload, env.now)
    case Next => OnNext(g, env.now)
    case TimeoutQuestion => OnQuestionTimeout(g, payload, env)
    case TimeoutAnswer => OnAnswerTimeout(g, payload, env.now)
    case End => Stop(Empty)
    case TimeoutDisplay => Continue(g, Default(g))
    case Unknown(_) => Continue(g, Default(g))
  }

  /** Only `end` stops the loop, and only a guess or an answer timeout can panic. */
  lemma DispatchEnds(g: Game, kind: RequestKind, token: string, payload: string, env: Env)
    ensures var o := Dispatch(g, kind, token, payload, env);
      && (o.Stop? <==> kind == End)
      && (o.Stop? ==> o.response == Empty)
      && (o.Crashed? ==> kind == Guess || kind == TimeoutAnswer)
  {
  }

  /** `start`, `submit` and `next` act only in their own phase; otherwise nothing changes. */
  lemma DispatchPhaseGates(g: Game, kind: RequestKind, token: string, payload: string, env: Env)
    ensures var o := Dispatch(g, kind, token, payload, env);
      && (kind == Start && g.state != Setup ==> o == Continue(g, Default(g)))
      && (kind == Submit && g.state != Pose ==> o == Continue(g, Default(g)))
      && (kind == Next && g.state != ShowResults ==> o == Continue(g, Default(g)))
      && (kind == Next && g.state == ShowResults ==> o.Continue? && (o.game.state == Pose || o.game.state == Final))
  {
  }

  /** A timeout acts only for the question it was armed for, chat and poll only for a
      player, and an unhandled kind never; otherwise nothing changes. */
  lemma DispatchAccessGates(g: Game, kind: RequestKind, token: string, payload: string, env: Env)
    ensures var o := Dispatch(g, kind, token, payload, env);
      && (kind.TimeoutDisplay? || kind.Unknown? ==> o == Continue(g, Default(g)))
      && ((kind == ChatKind || kind == Poll) && !CheckPermission(g.players, token) ==> o == Continue(g, Default(g)))
      && (kind == TimeoutQuestion && !(g.state == Pose && g.current.xid == payload) ==> o == Continue(g, Default(g)))
      && (kind == TimeoutAnswer && !(g.state == OfferAnswers && g.current.xid == payload) ==> o == Continue(g, Default(g)))
  {
  }

  /** No request changes the game's ids, and only joining, guessing and the answer
      timeout touch the roster. */
  lemma DispatchKeepsIds(g: Game, kind: RequestKind, token: string, payload: string, env: Env)
    ensures var o := Dispatch(g, kind, token, payload, env);
      && (o.Continue? ==> o.game.xid == g.xid && o.game.accessCode == g.accessCode)
      && (o.Continue? && !(kind.Join? || kind.Guess? || kind.TimeoutAnswer?) ==> o.game.players == g.players)
  {
  }

  /** No handler moves a chat cursor past the end of the log. */
  lemma DispatchKeepsChatValid(g: Game, kind: RequestKind, token: string, payload: string, env: Env)
    requires Valid(g.chat)
    ensures var o := Dispatch(g, kind, token, payload, env);
      o.Continue? ==> Valid(o.game.chat)
  {
  }

  /**
   * One iteration of the `PlayGame` loop. The request kind decides the operation; a
   * kind the switch does not list (including `displaytimeout`, which `SetState` arms
   * but nothing handles) leaves the game alone and gets the default response.
   */
  ghost function Step(g: Game, req: Request, env: Env): (o: Outcome)
    ensures o.Stop? <==> ParseKind(req.kind) == End
    ensures o.Stop? ==> o.response == Empty
    ensures o.Continue? ==> o.response.Snapshot?
    ensures o.Crashed? ==> ParseKind(req.kind) == Guess || ParseKind(req.kind) == TimeoutAnswer
    ensures ParseKind(req.kind).TimeoutDisplay? || ParseKind(req.kind).Unknown? ==> o == Continue(g, Default(g))
    ensures (ParseKind(req.kind) == ChatKind || ParseKind(req.kind) == Poll) && !CheckPermission(g.players, req.token) ==>
      o == Continue(g, Default(g))
    ensures ParseKind(req.kind) == Start && g.state != Setup ==> o == Continue(g, Default(g))
    ensures ParseKind(req.kind) == Submit && g.state != Pose ==> o == Continue(g, Default(g))
    ensures ParseKind(req.kind) == Next && g.state != ShowResults ==> o == Continue(g, Default(g))
    ensures ParseKind(req.kind) == Next && g.state == ShowResults ==>
      o.Continue? && (o.game.state == Pose || o.game.state == Final)
    ensures ParseKind(req.kind) == TimeoutQuestion && !(g.state == Pose && g.current.xid == Clean(req.payload)) ==>
      o == Continue(g, Default(g))
    ensures ParseKind(req.kind) == TimeoutAnswer && !(g.state == OfferAnswers && g.current.xid == Clean(req.payload)) ==>
      o == Continue(g, Default(g))
    ensures o.Continue? ==> o.game.xid == g.xid && o.game.accessCode == g.accessCode
    ensures o.Continue? && !(ParseKind(req.kind).Join? || ParseKind(req.kind).Guess? || ParseKind(req.kind).TimeoutAnswer?) ==>
      o.game.players == g.players
  {
    var kind, payload := ParseKind(req.kind), Clean(req.payload);
    DispatchEnds(g, kind, req.token, payload, env);
    DispatchPhaseGates(g, kind, req.token, payload, env);
    DispatchAccessGates(g, kind, req.token, payload, env);
    DispatchKeepsIds(g, kind, req.token, payload, env);
    Dispatch(g, kind, req.token, payload, env)
  }

  /** A loaded `start` leaves `setup` for good, so a second `start` changes nothing. */
  lemma SecondStartIsNoOp(g: Game, r1: Request, e1: Env, r2: Request, e2: Env)
    requires g.state == Setup && e1.pool.Some?
    requires ParseKind(r1.kind) == Start && ParseKind(r2.kind) == Start
    ensures var o := Step(g, r1, e1);
      o.Continue? && Step(o.game, r2, e2) == Continue(o.game, Default(o.game))
  {
  }

  /** What a client sees of a run of the loop: the responses in order, and how it ended. */
  datatype Trace = Trace(game: Game, responses: seq<Response>, ended: bool, crash: Option<CrashReason>)

  /** A session's chat starts valid: the new game's log and cursors are empty. */
  lemma NewGameChatValid(xid: string, code: string)
    ensures Valid(NewGame(xid, code).chat)
  {
  }

  /** Every iteration of the loop keeps the chat valid, so the delivery guarantees of the
      chat hold for every poll and chat request of a session. */
  lemma StepKeepsChatValid(g: Game, req: Request, env: Env)
    requires Valid(g.chat)
    ensures Step(g, req, env).Continue? ==> Valid(Step(g, req, env).game.chat)
  {
    DispatchKeepsChatValid(g, ParseKind(req.kind), req.token, Clean(req.payload), env);
  }

  /** Feeds the requests to the loop in order, each with its own environment; the loop
      stops at the first `end` and dies at the first panic. */
  ghost function Run(g: Game, inputs: seq<(Request, Env)>): (t: Trace)
    ensures |t.responses| <= |inputs|
    ensures !t.ended && t.crash.None? ==> |t.responses| == |inputs|
    ensures t.ended ==> t.crash.None? && |t.responses| > 0
    ensures t.crash.Some? ==> |t.responses| < |inputs|
    decreases |inputs|
  {
    if inputs == [] then Trace(g, [], false, None)
    else match Step(g, inputs[0].0, inputs[0].1)
      case Stop(resp) => Trace(g, [resp], true, None)
      case Crashed(reason) => Trace(g, [], false, Some(reason))
      case Continue(g1, resp) =>
        var t := Run(g1, inputs[1..]);
        t.(responses := [resp] + t.responses)
  }

  /** A run that ended did so at an `end`, whose response is the empty one and comes last. */
  lemma {:induction false} RunEndsAtEnd(g: Game, inputs: seq<(Request, Env)>)
    ensures var t := Run(g, inputs);
      t.ended ==> t.responses[|t.responses| - 1] == Empty && ParseKind(inputs[|t.responses| - 1].0.kind) == End
    decreases |inputs|
  {
    if inputs != [] {
      var o := Step(g, inputs[0].0, inputs[0].1);
      var t := Run(g, inputs);
      match o
      case Stop(resp) =>
        assert t == Trace(g, [resp], true, None);
      case Crashed(reason) =>
        assert !t.ended;
      case Continue(g1, resp) =>
        var rest := Run(g1, inputs[1..]);
        assert t == rest.(responses := [resp] + rest.responses);
        RunEndsAtEnd(g1, inputs[1..]);
        if rest.ended {
          assert inputs[1..][|rest.responses| - 1] == inputs[|rest.responses|];
        }
    }
  }

  /** The chat stays valid throughout a run, up to the game the run leaves behind. */
  lemma {:induction false} RunKeepsChatValid(g: Game, inputs: seq<(Request, Env)>)
    requires Valid(g.chat)
    ensures Valid(Run(g, inputs).game.chat)
    decreases |inputs|
  {
    if inputs != [] {
      var o := Step(g, inputs[0].0, inputs[0].1);
      if o.Continue? {
        StepKeepsChatValid(g, inputs[0].0, inputs[0].1);
        RunKeepsChatValid(o.game, inputs[1..]);
      }
    }
  }

  /** One response per request up to the first `end`: no request answered before the
      last response was an `end`. */
  lemma {:induction false} RunAnswersUntilEnd(g: Game, inputs: seq<(Request, Env)>)
    ensures var t := Run(g, inputs);
      forall k :: 0 <= k < |t.responses| - (if t.ended then 1 else 0) ==> ParseKind(inputs[k].0.kind) != End
    decreases |inputs|
  {
    if inputs != [] {
      var o := Step(g, inputs[0].0, inputs[0].1);
      if o.Continue? {
        RunAnswersUntilEnd(o.game, inputs[1..]);
        assert forall k :: 1 <= k < |inputs| ==> inputs[1..][k - 1] == inputs[k];
      }
    }
  }
}

=== FILE: standings.dfy ===
/**
 * Score summaries of game.go: the roster-order score line of `GetScores` and the
 * end-of-game summary of `FinalResult` (one entry per display name, sorted by score,
 * a header naming the winner, a tie or a one-player game, and the titles played).
 * The HTML markup is replaced by the data it shows.
 */
module Standings {
  import opened Roster
  import opened Questions

  datatype ScoreLine = ScoreLine(name: string, score: nat)

  /** `GetScores`: each player's name and score, in roster order. */
  function GetScores(players: seq<Player>): (r: seq<ScoreLine>)
    ensures |r| == |players|
    ensures forall i :: 0 <= i < |r| ==> r[i] == ScoreLine(players[i].name, players[i].score)
  {
    seq(|players|, i requires 0 <= i < |players| => ScoreLine(players[i].name, players[i].score))
  }

  ghost predicate DistinctNames(s: seq<ScoreLine>) {
    forall i, j :: 0 <= i < j < |s| ==> s[i].name != s[j].name
  }

  function Names(s: seq<ScoreLine>): set<string> {
    set i | 0 <= i < |s| :: s[i].name
  }

  function RosterNames(players: seq<Player>): set<string> {
    set i | 0 <= i < |players| :: players[i].name
  }

  function Line(p: Player): ScoreLine {
    ScoreLine(p.name, p.score)
  }

  /** Position `j` holds the last player with its name, the one whose score
      `m[p.Name] = p.Score` keeps. */
  ghost predicate IsLastOfName(players: seq<Player>, j: int) {
    0 <= j < |players| && forall k :: j < k < |players| ==> players[k].name != players[j].name
  }

  /** The entry `e` is the line of the last player with its name. */
  ghost predicate FromLast(players: seq<Player>, e: ScoreLine) {
    exists j :: IsLastOfName(players, j) && e == Line(players[j])
  }

  /** The name-to-score map `FinalResult` builds, as a list: one entry per name, carrying
      the score of the last player with that name. */
  function Tabulate(players: seq<Player>): (r: seq<ScoreLine>)
    ensures DistinctNames(r)
    ensures Names(r) == RosterNames(players)
    ensures forall i :: 0 <= i < |r| ==> FromLast(players, r[i])
    decreases |players|
  {
    if players == [] then []
    else
      var t := Tabulate(players[1..]);
      TailFacts(players);
      if players[0].name in RosterNames(players[1..]) then
        KeepTail(players, t);
        t
      else
        var r := [Line(players[0])] + t;
        ConsFacts(players, t);
        r
  }

  /** Names and last positions of a roster, seen from its tail. */
  lemma TailFacts(players: seq<Player>)
    requires players != []
    ensures RosterNames(players) == {players[0].name} + RosterNames(players[1..])
    ensures forall j :: IsLastOfName(players[1..], j) ==> IsLastOfName(players, j + 1)
    ensures forall j :: IsLastOfName(players[1..], j) ==> players[j + 1] == players[1..][j]
    ensures players[0].name !in RosterNames(players[1..]) ==> IsLastOfName(players, 0)
  {
    var tail := players[1..];
    forall n | n in RosterNames(players) ensures n in {players[0].name} + RosterNames(tail) {
      var k :| 0 <= k < |players| && players[k].name == n;
      if k > 0 { assert tail[k - 1] == players[k]; }
    }
    forall n | n in RosterNames(tail) ensures n in RosterNames(players) {
      var k :| 0 <= k < |tail| && tail[k].name == n;
      assert players[k + 1] == tail[k];
    }
    forall j | IsLastOfName(tail, j) ensures IsLastOfName(players, j + 1) {
      forall k | j + 1 < k < |players| ensures players[k].name != players[j + 1].name {
        assert players[k] == tail[k - 1];
      }
    }
    if players[0].name !in RosterNames(tail) {
      forall k | 0 < k < |players| ensures players[k].name != players[0].name {
        assert tail[k - 1] == players[k];
        assert tail[k - 1].name in RosterNames(tail);
      }
    }
  }

  /** When the first player's name recurs later, the tail's table serves the whole roster. */
  lemma KeepTail(players: seq<Player>, t: seq<ScoreLine>)
    requires players != []
    requires forall j :: IsLastOfName(players[1..], j) ==> IsLastOfName(players, j + 1)
    requires forall j :: IsLastOfName(players[1..], j) ==> players[j + 1] == players[1..][j]
    requires forall i :: 0 <= i < |t| ==> FromLast(players[1..], t[i])
    ensures forall i :: 0 <= i < |t| ==> FromLast(players, t[i])
  {
    forall i | 0 <= i < |t| ensures FromLast(players, t[i]) {
      var j :| IsLastOfName(players[1..], j) && t[i] == Line(players[1..][j]);
      assert IsLastOfName(players, j + 1) && players[j + 1] == players[1..][j];
      assert t[i] == Line(players[j + 1]);
    }
  }

  /** When the first player's name does not recur, its line goes in front of the tail's table. */
  lemma ConsFacts(players: seq<Player>, t: seq<ScoreLine>)
    requires players != []
    requires DistinctNames(t)
    requires Names(t) == RosterNames(players[1..])
    requires RosterNames(players) == {players[0].name} + RosterNames(players[1..])
    requires players[0].name !in RosterNames(players[1..])
    requires IsLastOfName(players, 0)
    requires forall j :: IsLastOfName(players[1..], j) ==> IsLastOfName(players, j + 1)
    requires forall j :: IsLastOfName(players[1..], j) ==> players[j + 1] == players[1..][j]
    requires forall i :: 0 <= i < |t| ==> FromLast(players[1..], t[i])
    ensures var r := [Line(players[0])] + t;
      && DistinctNames(r)
      && Names(r) == RosterNames(players)
      && forall i :: 0 <= i < |r| ==> FromLast(players, r[i])
  {
    var r := [Line(players[0])] + t;
    assert r[0].name == players[0].name;
    assert players[0].name in Names(r);
    forall n | n in Names(r) ensures n in {players[0].name} + Names(t) {
      var k :| 0 <= k < |r| && r[k].name == n;
      if k > 0 { assert r[k] == t[k - 1]; }
    }
    forall n | n in Names(t) ensures n in Names(r) {
      var k :| 0 <= k < |t| && t[k].name == n;
      assert r[k + 1] == t[k];
    }
    forall a, b | 0 <= a < b < |r| ensures r[a].name != r[b].name {
      assert r[b] == t[b - 1];
      if a > 0 { assert r[a] == t[a - 1]; }
      else { assert t[b - 1].name in Names(t); }
    }
    forall i | 0 <= i < |r| ensures FromLast(players, r[i]) {
      if i == 0 {
        assert r[0] == Line(players[0]);
      } else {
        assert r[i] == t[i - 1];
        var j :| IsLastOfName(players[1..], j) && t[i - 1] == Line(players[1..][j]);
        assert IsLastOfName(players, j + 1);
      }
    }
  }

  /** Non-increasing by score. */
  ghost predicate SortedByScore(s: seq<ScoreLine>) {
    forall i, j :: 0 <= i < j < |s| ==> s[i].score >= s[j].score
  }

  /** Puts `x` in front of the first entry it is not below. */
  function Insert(x: ScoreLine, s: seq<ScoreLine>): (r: seq<ScoreLine>)
    requires SortedByScore(s)
    ensures SortedByScore(r)
    ensures multiset(r) == multiset(s) + multiset{x}
    ensures |r| == |s| + 1
    decreases |s|
  {
    if s == [] || x.score >= s[0].score then
      [x] + s
    else
      var t := Insert(x, s[1..]);
      InsertBelowHead(x, s, t);
      [s[0]] + t
  }

  /** When `x` goes below the head, the head stays in front of the insertion into the rest. */
  lemma InsertBelowHead(x: ScoreLine, s: seq<ScoreLine>, t: seq<ScoreLine>)
    requires SortedByScore(s) && s != [] && x.score < s[0].score
    requires SortedByScore(t) && multiset(t) == multiset(s[1..]) + multiset{x}
    ensures SortedByScore([s[0]] + t)
    ensures multiset([s[0]] + t) == multiset(s) + multiset{x}
  {
    assert s == [s[0]] + s[1..];
    var r := [s[0]] + t;
    forall k | 0 <= k < |t| ensures t[k].score <= s[0].score {
      assert t[k] in multiset(t);
      if t[k] != x {
        assert t[k] in multiset(s[1..]);
        var m :| 0 <= m < |s[1..]| && s[1..][m] == t[k];
        assert s[m + 1] == t[k];
      }
    }
    forall a, b | 0 <= a < b < |r| ensures r[a].score >= r[b].score {
      assert r[b] == t[b - 1];
      if a > 0 { assert r[a] == t[a - 1]; }
    }
  }

  /** `sort.Slice(ss, V descending)`: a permutation of the entries, highest score first.
      Go's sort is not stable, so the order among equal scores is whatever this yields. */
  function SortByScore(s: seq<ScoreLine>): (r: seq<ScoreLine>)
    ensures SortedByScore(r)
    ensures multiset(r) == multiset(s)
    ensures |r| == |s|
  {
    if s == [] then []
    else
      assert s == [s[0]] + s[1..];
      Insert(s[0], SortByScore(s[1..]))
  }

  /** The first line of the summary. */
  datatype Header = Tie | Winner(name: string) | Solo

  /** What `FinalResult` shows: header, ranked standings, and the titles played. */
  datatype Summary = Summary(header: Header, standings: seq<ScoreLine>, titles: seq<string>)

  /** `Game.FinalResult` over the roster and the questions already played. */
  function FinalResult(players: seq<Player>, done: seq<Question>): (r: Summary)
    ensures SortedByScore(r.standings)
    ensures multiset(r.standings) == multiset(Tabulate(players))
    ensures r.header == Solo <==> |r.standings| <= 1
    ensures r.header == Tie <==> |r.standings| > 1 && r.standings[0].score == r.standings[1].score
    ensures r.header.Winner? ==> r.header.name == r.standings[0].name
    ensures r.header.Winner? ==> forall i :: 0 < i < |r.standings| ==> r.standings[i].score < r.standings[0].score
    ensures |r.titles| == |done| && forall i :: 0 <= i < |done| ==> r.titles[i] == done[i].title
  {
    var ss := SortByScore(Tabulate(players));
    var header :=
      if |ss| > 1 then (if ss[0].score == ss[1].score then Tie else Winner(ss[0].name))
      else Solo;
    Summary(header, ss, seq(|done|, i requires 0 <= i < |done| => done[i].title))
  }

  /** A list with distinct names holds each entry at most once. */
  lemma {:induction false} DistinctCountsOnce(t: seq<ScoreLine>, x: ScoreLine)
    requires DistinctNames(t)
    ensures multiset(t)[x] <= 1
    decreases |t|
  {
    if t != [] {
      assert t == [t[0]] + t[1..];
      assert DistinctNames(t[1..]) by {
        forall a, b | 0 <= a < b < |t[1..]| ensures t[1..][a].name != t[1..][b].name {
          assert t[1..][a] == t[a + 1] && t[1..][b] == t[b + 1];
        }
      }
      DistinctCountsOnce(t[1..], x);
      forall m | 0 <= m < |t[1..]| ensures t[1..][m] != t[0] {
        assert t[1..][m] == t[m + 1];
      }
      assert t[0] !in t[1..];
    }
  }

  /** Entries of a list with distinct names that differ also differ in name. */
  lemma DifferentEntriesDifferentNames(t: seq<ScoreLine>, a: ScoreLine, b: ScoreLine)
    requires DistinctNames(t)
    requires a in t && b in t && a != b
    ensures a.name != b.name
  {
    var ia :| 0 <= ia < |t| && t[ia] == a;
    var ib :| 0 <= ib < |t| && t[ib] == b;
    assert ia != ib;
  }

  /** A rearrangement of a list with distinct names still has distinct names. */
  lemma PermutationKeepsDistinct(s: seq<ScoreLine>, t: seq<ScoreLine>)
    requires multiset(s) == multiset(t)
    requires DistinctNames(t)
    ensures DistinctNames(s)
  {
    forall i, j | 0 <= i < j < |s| ensures s[i].name != s[j].name {
      var x := s[i];
      assert s == s[..i] + [x] + s[i + 1..j] + [s[j]] + s[j + 1..];
      assert multiset(s)[x] >= 1 + (if s[j] == x then 1 else 0);
      DistinctCountsOnce(t, x);
      assert s[i] != s[j];
      assert s[i] in multiset(t) && s[j] in multiset(t);
      DifferentEntriesDifferentNames(t, s[i], s[j]);
    }
  }

  /** A rearrangement has the same names and the same entries. */
  lemma PermutationKeepsEntries(s: seq<ScoreLine>, t: seq<ScoreLine>)
    requires multiset(s) == multiset(t)
    ensures Names(s) == Names(t)
    ensures forall i :: 0 <= i < |s| ==> s[i] in t
  {
    forall n | n in Names(s) ensures n in Names(t) {
      var i :| 0 <= i < |s| && s[i].name == n;
      assert s[i] in multiset(t);
      var k :| 0 <= k < |t| && t[k] == s[i];
    }
    forall n | n in Names(t) ensures n in Names(s) {
      var k :| 0 <= k < |t| && t[k].name == n;
      assert t[k] in multiset(s);
      var i :| 0 <= i < |s| && s[i] == t[k];
    }
    forall i | 0 <= i < |s| ensures s[i] in t {
      assert s[i] in multiset(t);
    }
  }

  /** The final standings name every player exactly once, each with the score of the
      last roster entry holding that name. */
  lemma StandingsListEachPlayerOnce(players: seq<Player>, done: seq<Question>)
    ensures DistinctNames(FinalResult(players, done).standings)
    ensures Names(FinalResult(players, done).standings) == RosterNames(players)
    ensures var s := FinalResult(players, done).standings;
      forall i :: 0 <= i < |s| ==> FromLast(players, s[i])
  {
    var t := Tabulate(players);
    var s := FinalResult(players, done).standings;
    PermutationKeepsDistinct(s, t);
    PermutationKeepsEntries(s, t);
    forall i | 0 <= i < |s| ensures FromLast(players, s[i]) {
      var k :| 0 <= k < |t| && t[k] == s[i];
    }
  }
}

=== FILE: tags.dfy ===
/**
 * `StripTags` (playgame.go): deletes every match of the lazy pattern `<(.|\n)*?>`, i.e.
 * each `<` together with everything up to the first `>` after it. A `<` with no `>`
 * anywhere after it is not part of a match and stays, as does everything after it.
 */
module Tags {
  import opened Wrappers

  /** The position of the first `>` at or after `from`. */
  function FindClose(s: string, from: nat): (r: Option<nat>)
    requires from <= |s|
    ensures r.Some? ==> from <= r.value < |s| && s[r.value] == '>'
    ensures r.Some? ==> forall k :: from <= k < r.value ==> s[k] != '>'
    ensures r.None? ==> forall k :: from <= k < |s| ==> s[k] != '>'
    decreases |s| - from
  {
    if from == |s| then None
    else if s[from] == '>' then Some(from)
    else FindClose(s, from + 1)
  }

  /** Go's `regexp.ReplaceAllString(content, "")` for the tag pattern, scanning left to right. */
  function StripTags(s: string): (r: string)
    ensures |r| <= |s|
    ensures |s| > 0 && s[0] != '<' ==> |r| > 0 && r[0] == s[0]
    decreases |s|
  {
    if s == [] then []
    else if s[0] == '<' then
      match FindClose(s, 1)
      case Some(q) => StripTags(s[q + 1..])
      case None => s
    else [s[0]] + StripTags(s[1..])
  }

  /** `a` can be obtained from `b` by deleting characters. */
  predicate IsSubsequence(a: string, b: string)
    decreases |b|
  {
    if a == [] then true
    else if b == [] then false
    else (a[0] == b[0] && IsSubsequence(a[1..], b[1..])) || IsSubsequence(a, b[1..])
  }

  /** No `<` is followed, anywhere later, by a `>`: nothing the pattern could match. */
  ghost predicate TagFree(s: string) {
    forall i, j :: 0 <= i < j < |s| && s[i] == '<' ==> s[j] != '>'
  }

  lemma {:induction false} SubsequenceReflexive(a: string)
    ensures IsSubsequence(a, a)
    decreases |a|
  {
    if a != [] {
      SubsequenceReflexive(a[1..]);
    }
  }

  /** A subsequence of a suffix is a subsequence of the whole. */
  lemma {:induction false} SubsequenceOfSuffix(a: string, b: string, k: nat)
    requires k <= |b|
    requires IsSubsequence(a, b[k..])
    ensures IsSubsequence(a, b)
    decreases k
  {
    if k > 0 {
      assert b[k..] == b[1..][k - 1..];
      SubsequenceOfSuffix(a, b[1..], k - 1);
      if a != [] {
        assert IsSubsequence(a, b[1..]);
      }
    }
  }

  /** The output only ever drops characters of the input. */
  lemma {:induction false} StripTagsIsSubsequence(s: string)
    ensures IsSubsequence(StripTags(s), s)
    decreases |s|
  {
    if s != [] {
      if s[0] == '<' {
        match FindClose(s, 1)
        case Some(q) =>
          StripTagsIsSubsequence(s[q + 1..]);
          SubsequenceOfSuffix(StripTags(s[q + 1..]), s, q + 1);
        case None =>
          SubsequenceReflexive(s);
      } else {
        StripTagsIsSubsequence(s[1..]);
        assert ([s[0]] + StripTags(s[1..]))[1..] == StripTags(s[1..]);
      }
    }
  }

  /** The output never contains a `<` with a `>` somewhere after it. */
  lemma {:induction false} StripTagsIsTagFree(s: string)
    ensures TagFree(StripTags(s))
    decreases |s|
  {
    if s != [] {
      if s[0] == '<' {
        match FindClose(s, 1)
        case Some(q) => StripTagsIsTagFree(s[q + 1..]);
        case None =>
      } else {
        StripTagsIsTagFree(s[1..]);
        var t := StripTags(s[1..]);
        var r := [s[0]] + t;
        forall i, j | 0 <= i < j < |r| && r[i] == '<' ensures r[j] != '>' {
          assert r[j] == t[j - 1];
          assert i > 0;
          assert r[i] == t[i - 1];
        }
      }
    }
  }

  /** A string with nothing to strip comes back unchanged. */
  lemma {:induction false} TagFreeUnchanged(s: string)
    requires TagFree(s)
    ensures StripTags(s) == s
    decreases |s|
  {
    if s != [] {
      if s[0] == '<' {
        assert FindClose(s, 1).None? by {
          forall k | 1 <= k < |s| ensures s[k] != '>' {
            assert 0 < k;
          }
        }
      } else {
        assert TagFree(s[1..]) by {
          forall i, j | 0 <= i < j < |s[1..]| && s[1..][i] == '<' ensures s[1..][j] != '>' {
            assert s[1..][i] == s[i + 1] && s[1..][j] == s[j + 1];
          }
        }
        TagFreeUnchanged(s[1..]);
        assert s == [s[0]] + s[1..];
      }
    }
  }

  /** A string without any `<` comes back unchanged. */
  lemma NoOpenUnchanged(s: string)
    requires forall i :: 0 <= i < |s| ==> s[i] != '<'
    ensures StripTags(s) == s
  {
    TagFreeUnchanged(s);
  }

  /** Stripping twice is stripping once. */
  lemma StripTagsIdempotent(s: string)
    ensures StripTags(StripTags(s)) == StripTags(s)
  {
    StripTagsIsTagFree(s);
    TagFreeUnchanged(StripTags(s));
  }

  /** One scanner step at a `<` whose first later `>` is at `j`: the whole tag goes. */
  lemma SkipTag(s: string, i: nat, j: nat)
    requires i < j < |s| && s[i] == '<' && s[j] == '>'
    requires forall k :: i + 1 <= k < j ==> s[k] != '>'
    ensures StripTags(s[i..]) == StripTags(s[j + 1..])
  {
    var rest := s[i..];
    forall k | 1 <= k < j - i ensures rest[k] != '>' {
      assert rest[k] == s[i + k];
    }
    assert FindClose(rest, 1) == Some(j - i);
    assert rest[j - i + 1..] == s[j + 1..];
  }

  /** One scanner step at a `<` with no later `>`: the rest is kept as it is. */
  lemma KeepUnclosed(s: string, i: nat)
    requires i < |s| && s[i] == '<'
    requires forall k :: i + 1 <= k < |s| ==> s[k] != '>'
    ensures StripTags(s[i..]) == s[i..]
  {
    var rest := s[i..];
    forall k | 1 <= k < |rest| ensures rest[k] != '>' {
      assert rest[k] == s[i + k];
    }
    assert FindClose(rest, 1) == None;
  }

  /** One scanner step at any other character: it is copied. */
  lemma CopyPlain(s: string, i: nat)
    requires i < |s| && s[i] != '<'
    ensures StripTags(s[i..]) == [s[i]] + StripTags(s[i + 1..])
  {
    assert s[i..][1..] == s[i + 1..];
  }

  /** The same scan as an imperative loop over the input, one character or one tag at a time. */
  method StripTagsScan(s: string) returns (out: string)
    ensures out == StripTags(s)
  {
    out := [];
    var i := 0;
    while i < |s|
      invariant 0 <= i <= |s|
      invariant out + StripTags(s[i..]) == StripTags(s)
      decreases |s| - i
    {
      if s[i] == '<' {
        var j := i + 1;
        while j < |s| && s[j] != '>'
          invariant i + 1 <= j <= |s|
          invariant forall k :: i + 1 <= k < j ==> s[k] != '>'
          decreases |s| - j
        {
          j := j + 1;
        }
        if j < |s| {
          SkipTag(s, i, j);
          i := j + 1;
        } else {
          KeepUnclosed(s, i);
          out := out + s[i..];
          i := |s|;
          assert StripTags(s[i..]) == [];
        }
      } else {
        CopyPlain(s, i);
        out := out + [s[i]];
        i := i + 1;
      }
    }
  }
}

=== FILE: wrappers.dfy ===
/** The optional-value and success-or-error datatypes shared by every module of the model. */
module Wrappers {

  /** A value that may be missing; `None` also stands for Go's nil map. */
  datatype Option<+T> = None | Some(value: T) {

    /** Returns the value held in `Some`, or `default` for `None`. */
    function GetOr(default: T): T {
      match this
      case Some(v) => v
      case None => default
    }
  }

  /** The outcome of an operation that the source reports through an `error` value. */
  datatype Result<+R, +E> = Success(value: R) | Failure(error: E)
}
